=== FILE: README.md ===
# Pass the bomb: the game state machine

A Dafny model of the server core of *pass_the_bomb*, a multiplayer word game.
Players join a lobby and start the game by vote, or automatically once enough
players are present. They then take turns answering a spelling clue while one
bomb countdown ticks. A correct answer passes the turn on the same bomb. A
wrong answer shortens the countdown by a second. When the countdown fires,
the active player loses a life, and is eliminated at zero.

The model has two parts:

- `GameState` (`game_state.dfy`) models `src/game_state.py`.
  - Every public operation and both timer callbacks run under one lock in
    `src/game_state.py`. Each is modelled as one atomic step: a pure function from
    a `State` (plus the clock reading and the outcome of the random draws)
    to the next state and the list of effects it emits, in order.
  - `Valid` is the invariant every step keeps. It says the roster list and
    the player map agree and the turn pointer is in range (0 on an empty
    roster). It also says a running game has a roster and no votes, votes
    come from rostered players, the lobby has no countdown, and a
    countdown's handle is fresh.
- `Config` (`config.dfy`) models `_to_bool` and the defaulting and clamping
  in `load_config` of `backend/config.py`. Its input is a record of the
  values found in the file.

The other files:

- `GameProps` (`game_props.dfy`) holds one dispatcher over every event and
  whole runs of events from a fresh game. It proves that no winner is ever
  announced and, when `lives_per_player` is at least 1, that nobody rostered
  is ever at zero lives (`load_config` does not clamp that setting). It also holds the
  rotation lemmas, the answer-comparison property, the lobby finding below,
  and the unit-test scenarios.
- `Seqs`, `Text` and `Optional` are helpers:
  - `Seqs`: duplicate-free lists, removal of the first occurrence, filtering;
  - `Text`: Python's `str.strip` whitespace set and ASCII lower-casing;
  - `Optional`: an option type.

Countdown handles carry a fresh id each time one is armed. So "the same
bomb keeps ticking" is equality of handles, and re-arming is a new handle.

## Model

| member | source | states |
|---|---|---|
| GameState.Voters | src/game_state.py:161 | the voters listed in the lobby are exactly the rostered connections that voted |
| GameState.VotersInRosterOrder | src/game_state.py:161 | the voters are listed in the order they have in the roster |
| GameState.BroadcastLobby | src/game_state.py:160-169 | the lobby snapshot is one broadcast, to the whole roster |
| GameState.LobbyListsRoster | src/game_state.py:160-169 | the count is the roster size; the names are the rostered players' in roster order; the vote list names the rostered voters in roster order, so every rostered voter's name is on it |
| GameState.PointerAdjustmentsAgree | src/game_state.py:282-285 | for a pointer in range, the pointer adjustment of `remove_player_internal` equals that of `remove_player` |
| GameState.PointerAfterRemoveValue | src/game_state.py:69-75 | the pointer drops by one when the removed index was below it, stays when above, and stays or wraps to 0 when the active slot itself is cut |
| GameState.PointerAfterRemoveKeepsRotation | src/game_state.py:69-75 | after the cut the pointer is in range and names the same player if someone else was removed, or the next one in rotation if the active player was |
| GameState.Drop | src/game_state.py:66-75 | the player leaves map and roster, the others keep their relative order, the pointer stays in range and drops by one when the removed index was below it |
| GameState.DropKeepsRotation | src/game_state.py:69-75 | after the cut the active player is unchanged, or is the successor when the active player was cut |
| GameState.DropInternal | src/game_state.py:278-285 | `remove_player_internal`'s cut and pointer adjustment give exactly the state `remove_player`'s do |
| GameState.EndGame | src/game_state.py:177-186 | countdown and deadline cleared, lobby phase; a game-over message naming the first rostered player iff the roster is non-empty |
| GameState.RemovePlayerInternalAsWritten | src/game_state.py:276-288 | as written: roster and map lose the player, votes are untouched, the phase ends iff nobody is left, nothing is emitted |
| GameState.RemovePlayerInternal | src/game_state.py:276-288 | corrected: the invariant holds after the removal, the vote is discarded too, the phase ends iff nobody is left, the active player stays unless removed, nothing else changes |
| GameState.RemovePlayerInternalKeepsRotation | src/game_state.py:278-285 | the pointer is re-based exactly as `remove_player` does it: the same player stays active if someone else was removed, the successor takes over if the active player was |
| GameState.AdvanceTurn | src/game_state.py:188-190 | only the pointer changes; it moves one place on and wraps from the last slot to 0 |
| GameState.AdvancePassesOn | src/game_state.py:188-190 | after advancing, the successor in rotation is active and the pointer is `(turn + 1) mod n` |
| GameState.TurnAnnouncement | src/game_state.py:219-234 | the NEW_TURN message carries the current clue and its answers, last round's clue and answers, and the active player's name; its standings hold one entry per rostered player, in roster order, with name and lives, and the entry at the pointer is the active player's |
| GameState.StartTurn | src/game_state.py:205-243 | the clue is archived only if there was one, a drawn clue and its answers become current, one NEW_TURN goes to all, a live countdown is kept, otherwise one is armed with a duration in `[timer_min, timer_max]` |
| GameState.ReduceTimer | src/game_state.py:192-203 | with no countdown nothing changes; otherwise a new countdown replaces it, with `remaining = max(1, ends_at - now - 1)` and the deadline moved to `now + remaining` |
| GameState.StartGame | src/game_state.py:171-175 | running, votes cleared, pointer at 0 so the first joiner is active, roster kept, a newly drawn clue with its answers, a fresh countdown and one turn announcement |
| GameState.Joined | src/game_state.py:45-46 | the newcomer is appended to the rotation with the given lives and the invariant is kept |
| GameState.AddPlayer | src/game_state.py:43-53 | the fresh connection is appended with `lives_per_player` lives; the game auto-starts iff it was in the lobby, the mode is auto and the roster reaches the minimum; an auto-start resets pointer and votes |
| GameState.AddPlayerAnnounces | src/game_state.py:47-53 | the first effect is the lobby snapshot that already counts the newcomer; an auto-start adds exactly one turn announcement naming the first player; no winner is named |
| GameState.Leave | src/game_state.py:66-75 | the player leaves roster, map and votes; the invariant holds whenever someone is left |
| GameState.Settle | src/game_state.py:77-83 | the game ends only on an empty roster, with no output; when the active player of a running game left, a new turn starts with a newly drawn clue, on the ticking bomb or, during the post-explosion pause, on a fresh countdown, and the lobby follows; otherwise only the lobby is sent; never a winner |
| GameState.RemovePlayer | src/game_state.py:55-83 | an unknown connection is a no-op; otherwise the player leaves roster, map and votes in order, the pointer follows `Drop`, the game stops iff nobody is left, and the three announcement cases hold; when the active player left, the new turn has a newly drawn clue and keeps the live countdown or arms a fresh one; no winner is ever named |
| GameState.RemovePlayerKeepsRotation | src/game_state.py:60-75 | after a removal the same player is active if someone else left, and the successor if the active player left |
| GameState.Guess | src/game_state.py:97-101 | with normalisation off, the compared guess neither starts nor ends with whitespace |
| GameState.Accepted | src/game_state.py:97-101 | one accepted form per answer: the raw answers with normalisation off, and each answer folded exactly as the guess is with it on |
| GameState.MatchesIff | src/game_state.py:97-102 | with normalisation on, a guess matches iff it folds to the same string as some answer; with it off, iff the lowered and stripped guess is one of the raw answers |
| GameState.SubmitAnswer | src/game_state.py:85-111 | ignored unless the game runs and the sender is active; roster, lives, phase and votes never change; a miss sends Invalid to the sender only and shortens the countdown |
| GameState.SubmitMatchAdvances | src/game_state.py:102-105 | a match emits the Valid message and then one turn announcement, and nothing else; it moves the pointer by one mod n to the successor, draws a new clue, keeps a live bomb or arms a fresh one, and names no winner |
| GameState.RemoveAll | src/game_state.py:140-141 | removing the failed recipients one by one keeps the invariant, shrinks the roster by their number, emits nothing, and keeps countdown and clue while anyone is left |
| GameState.RemoveAllMembers | src/game_state.py:140-141 | exactly the listed connections leave, and everyone else keeps their name and lives |
| GameState.RemoveAllKeepsActive | src/game_state.py:140-141 | removing others never moves the turn away from the active player |
| GameState.BroadcastTyping | src/game_state.py:113-141 | ignored unless the sender is active in a running game; the text goes to everyone but the sender; exactly the failing recipients are removed; the sender stays active and the bomb and clue are kept |
| GameState.AllVotedIff | src/game_state.py:155 | the vote count equals the roster size iff every rostered player has voted |
| GameState.VoteStart | src/game_state.py:143-156 | a no-op when running, not in vote mode, unknown voter or below the minimum; otherwise the vote is recorded and the game starts iff every rostered player has voted, with votes cleared and pointer 0 |
| GameState.VoteStartAnnounces | src/game_state.py:153-156 | a heard vote first sends the lobby with the new vote, then, if the game starts, exactly one turn announcement naming the first player |
| GameState.ThenDelay | src/game_state.py:271-274 | the post-explosion delay is scheduled after the given effects exactly when the game is still running |
| GameState.HandleTimeout | src/game_state.py:245-274 | a no-op in the lobby; otherwise the countdown is cleared, one EXPLODE naming the active player goes to the whole roster, eliminated iff the life taken was the last, then the delay iff still running; the game stops iff nobody is left; lives stay positive |
| GameState.TimeoutEliminates | src/game_state.py:255-262 | taking the last life removes exactly the active player from roster and map |
| GameState.TimeoutEliminationPassesOn | src/game_state.py:255-262 | after an elimination, the turn passes to the player who followed the eliminated one, through `remove_player_internal`'s pointer adjustment (lines 282-285), whenever anyone is left |
| GameState.TimeoutNeverEndsWithWinner | src/game_state.py:184-186 | a timeout never emits GAME_OVER |
| GameState.TimeoutSurvives | src/game_state.py:263-269 | with lives to spare the active player loses exactly one life, nobody else changes, the roster is kept and the turn passes to the successor |
| GameState.SafeNextTurn | src/game_state.py:290-293 | a no-op once the game is over; otherwise exactly one turn announcement to the roster, with a newly drawn clue and its answers, on the same roster, lives and pointer; a live countdown is kept, otherwise a fresh one is armed |
| GameProps.OnJoin | src/game_state.py:43-53 | a join keeps the invariant, never returns a running game to the lobby, names no winner and keeps lives positive when each player starts with at least one |
| GameProps.OnLeave | src/game_state.py:55-83 | a leave keeps the invariant, ends the game only when the roster is empty, names no winner and keeps lives positive when each player starts with at least one |
| GameProps.OnSubmit | src/game_state.py:85-111 | a submission keeps the invariant and the phase, names no winner and keeps lives positive when each player starts with at least one |
| GameProps.OnTyping | src/game_state.py:113-141 | relaying typing keeps the invariant, ends the game only when the roster empties, names no winner |
| GameProps.TypingNeverNamesWinner | src/game_state.py:124-141 | the typing relay emits at most one effect, a typing broadcast, and so never names a winner |
| GameProps.OnVote | src/game_state.py:143-156 | a vote keeps the invariant, names no winner and keeps lives positive when each player starts with at least one |
| GameProps.OnTimer | src/game_state.py:245-274 | a timeout keeps the invariant, ends the game only when the roster empties, names no winner, and keeps lives positive when each player starts with at least one |
| GameProps.OnDelay | src/game_state.py:290-293 | the delayed next turn keeps the invariant and names no winner |
| GameProps.Next | src/app.py:49-71 | the model's own event relation, one event per call the connection loop can make: every event keeps the invariant, returns to the lobby only when the roster is empty, never names a winner, and keeps lives positive when each player starts with at least one |
| GameProps.Apply | src/app.py:49-50 | one input, a repeated join dropped, keeps the invariant, names no winner and keeps lives positive when each player starts with at least one |
| GameProps.Run | src/app.py:38-71 | any sequence of events keeps the invariant, never names a winner and keeps lives positive when each player starts with at least one |
| GameProps.InitValid | src/game_state.py:12-39 | the constructed game is in the lobby, satisfies the invariant and has nobody at zero lives |
| GameProps.NoWinnerEverAnnounced | src/game_state.py:184-186 | from a fresh game no sequence of events ever emits GAME_OVER, and with at least one life per player nobody rostered reaches zero |
| GameProps.LastSurvivorKeepsPlaying | src/game_state.py:255-274 | eliminating one of the last two players leaves the game running with one player and the next turn scheduled |
| GameProps.AdvanceBy | src/game_state.py:188-190 | repeated advancing keeps the roster and the pointer invariant |
| GameProps.AdvanceWithinRound | src/game_state.py:188-190 | `k < n` advances move the pointer `k` places on, wrapping once past the end |
| GameProps.EveryoneGetsATurn | src/game_state.py:188-190 | every rostered player becomes active within fewer than `n` advances |
| GameProps.CapitalisedAnswerNeverMatches | src/game_state.py:98-102 | with normalisation off, an accepted answer containing a capital letter never equals the lowered, stripped guess |
| GameProps.VoteStartLosingAsWritten | src/game_state.py:153-156 | as written, when the lobby announcement loses a player, the game starts iff the votes, stale one included, number one less than the old roster |
| GameProps.VoteStartLosing | src/game_state.py:153-156 | corrected: the same sequence keeps the invariant and removes the lost player |
| GameProps.LobbyLossStartsOnlyWhenAllVoted | src/game_state.py:155-156 | corrected: the game starts iff someone is left and every remaining player has voted |
| GameProps.StaleVoteStartsGame | src/game_state.py:276-288 | as written, three players with one vote in, a second vote and a lost voter start the game while the third player never voted |
| GameProps.CorrectedKeepsLobby | src/game_state.py:155-156 | corrected, the same situation keeps the lobby |
| GameProps.InternalRemovalAgreesWhileRunning | src/game_state.py:276-288 | while the game runs, the corrected removal equals the removal as written |
| GameProps.JoinThenLeave | tests/test_game.py:44-46 | a lone joiner is sent the lobby listing only them; their leaving (tests/test_game.py:90-93) empties the roster with nothing sent |
| GameProps.TwoJoinedWaitInLobby | tests/test_game.py:48-50 | two joins in vote mode leave both in the lobby, in join order, with no votes |
| GameProps.OneVoteOfTwoKeepsLobby | tests/test_game.py:48-52 | one vote of two keeps the lobby and only records the vote |
| GameProps.TwoVotesStartTheGame | tests/test_game.py:54-59 | the second vote starts the game with the first joiner active |
| Config.ToBool | backend/config.py:45-54 | a bool passes through; a string whose stripped, lowered form is one of the five true or five false keywords decides; anything else gives the default |
| Config.ParseStartMode | backend/config.py:79-81 | only the exact string "auto" yields auto; everything else is vote |
| Config.LoadConfig | backend/config.py:69-91 | each field is the value found or, when the key is missing, the dataclass default; lives pass through unclamped; min players and timer min are raised to 1 when below and kept otherwise; timer max is raised to timer min when below and kept otherwise; the two flags are `_to_bool` of the value found (the default when missing); only the exact "auto" gives auto |
| Config.Flag | backend/config.py:85-86 | a flag is `_to_bool` of the value found, and the default when the key is missing |
| Config.AtLeastOne | backend/config.py:83-84 | a value below 1 becomes 1, any other is kept |
| Text.Strip | backend/config.py:49 | the result is the input with its leading and trailing whitespace cut, and starts and ends on a non-space |
| Config.EmptyFileGivesDefaults | backend/config.py:10-28 | an empty file loads as the dataclass defaults |
| Config.RenderRoundTrip | backend/config.py:82-91 | a configuration written out loads back unchanged iff it is within the clamping bounds |
| Config.LoadIdempotent | backend/config.py:82-91 | loading a loaded configuration again changes nothing |
| Config.TimerMinRaisedDragsMax | backend/config.py:88-91 | whenever both timer values found are below 1, both load as 1: the minimum is raised and drags the maximum with it |
| Config.KeywordListsDisjoint | backend/config.py:50-53 | no keyword is both true and false |
| Config.ToBoolIgnoresPadding | backend/config.py:49 | surrounding whitespace never changes the outcome |
| Config.UpperYesIsTrue | backend/config.py:49-51 | "YES" reads as true |
| Config.MixedOffIsFalse | backend/config.py:49-53 | "Off" reads as false |
| Config.PaddedYesIsTrue | backend/config.py:49-51 | " YES " reads as true |
| Config.NumbersKeepDefault | backend/config.py:54 | the numbers 0 and 1 and null give the default |
| Config.UnknownStartModeIsVote | backend/config.py:79-81 | any start mode other than the two exact strings falls back to vote |

## Left out

- Threads, the lock and `threading.Timer`. Each locked section is one atomic step. The countdown firing (`TimerFired`) and the post-explosion delay (`DelayElapsed`) are explicit events, and either may arrive in any state.
- A countdown cancelled too late. `Timer.cancel()` cannot stop a callback that has already fired and is waiting for the lock (`src/game_state.py:246`). So `_reduce_timer_by_seconds` (line 196) or `_end_game` (line 179) may cancel in vain. The stale `_handle_timeout` then runs on the current state. It clears `self.timer` (line 250) and so drops the reference to the countdown armed in its place. The next `_start_turn` arms yet another, and the program can have two live countdowns. In the model, a stale firing is one more `TimerFired` event: `HandleTimeout` requires only `Valid`. The orphaned countdown's later firing is another `TimerFired`. The model's single `timer` field is the countdown the program still holds a reference to. The program itself does not guarantee at most one live countdown, and the model does not claim it does.
- The clock. `now` is a parameter. The two `time.time()` reads in `_reduce_timer_by_seconds` are taken as one reading.
- `turn_transition_delay_seconds`, a float. The delay is only an effect, `ScheduleNextTurn`.
- Randomness. `random.choice` and `random.randint` are a `Draw` parameter. `DrawOk` requires the clue to be in the dictionary and the duration to be in range. An empty dictionary or a minimum above the maximum would make those calls raise; such a configuration is not modelled.
- Message encoding and delivery. JSON encoding and `ws.send` always succeed, except for the failing recipients of `broadcast_typing` (the `failing` parameter). A failed delivery in `_broadcast` is modelled only in the lobby-announcement case of the Findings. Elsewhere, removal on failed delivery is left out, and so is the ignored `Invalid` send failure. The debug `print` in `_start_turn` is left out.
- `str.lower` and `remove_accents` are uninterpreted functions of the environment. `remove_accents` relies on Unicode NFKD. `str.strip` is modelled with Python's whitespace set. `_to_bool` lowers ASCII letters only. No other character lowers to a letter of its keywords except the Kelvin sign, which lowers to `k`, and `k` is not in them.
- AddPlayer: requires a fresh connection. `src/app.py:49-50` calls `add_player` for every JOIN frame, and nothing on the server refuses a second one. A second JOIN from the same socket resets that player's lives and duplicates their roster entry (`src/game_state.py:45-46`). The model assumes each socket joins once, as the shipped client does (`src/static/app.js:288-292`). `Apply` drops a repeated join, so runs do not cover that case.
- The winner's name in `_end_game` is the first rostered player. The dict's insertion order is the roster order because each connection joins once. The branch is unreachable anyway (`NoWinnerEverAnnounced`).
- The file reading of `load_config` and the coercions `_to_int` and `_to_float`. An integer field holds the value `int()` produced, or nothing when the key is missing or `int()` failed. `host`, `port` and `dictionary_file` are not used by the game logic and are not modelled. `turn_transition_delay_seconds` is the pause before `_safe_next_turn` (`src/game_state.py:272`); it is not modelled as a number (see the line on the delay above).
- Config.ParseStartMode: `start_mode` values are compared with Python equality. A JSON value equal to neither string falls back to vote, which covers every value `json.load` produces.
- The connection loop of `src/app.py:38-71` is modelled only as the event relation `Next` (with `Apply` and `Run` over it): one event per `GameState` call the loop can make, a closed socket being `Disconnect`. The websocket plumbing and JSON parsing are not modelled. A `PASS` message calls `pass_turn`, which `GameState` does not define; the `AttributeError` ends the loop, and its `finally` block calls `remove_player`, so a `PASS` acts as a `Disconnect` and needs no event of its own. The loop drops an empty `SUBMIT` answer before `submit_answer`; `Next` still admits a `Submit` with empty text, a call the loop never makes, so the run properties cover more than the real runs.
- `src/static/app.js` (the UI) and `backend/utils.py` (accent folding and dictionary loading) are not part of this model.
- The tests in `tests/test_game.py` that use `submit_word` and `ipa_word` name members `GameState` does not define, so they are not modelled.
- `_end_game` has a winner branch (`src/game_state.py:184-186`), which suggests the game was meant to end with one player left. But `_end_game` is only called once the roster is empty (`src/game_state.py:77-78`, `287-288`), so a single survivor keeps playing. The model follows the code and proves the branch unreachable (`NoWinnerEverAnnounced`, `LastSurvivorKeepsPlaying`).

## Findings

| source | as written | input that shows it | evidently intended | confidence | as-written member | corrected member |
|---|---|---|---|---|---|---|
| src/game_state.py:276-288 | `remove_player_internal` never discards the removed connection's start vote. In the lobby it is reached from `_broadcast` when the announcement in `vote_start` fails (lines 154, 303-304). Line 155 then compares a vote count with a stale vote against the shrunken roster. | Lobby with players 1, 2, 3, where 1 has voted. Player 2 votes, and the lobby announcement fails to reach 1. Votes {1, 2} against roster [2, 3]: the game starts, but 3 never voted. | The removal discards the vote, as `remove_player` does at line 67. The game starts only when everyone still rostered has voted, and someone is rostered. | not executed | GameProps.StaleVoteStartsGame | GameProps.LobbyLossStartsOnlyWhenAllVoted |

=== FILE: config.dfy ===
/**
  Loading the game configuration: the defaults of `AppConfig`, the lenient
  boolean reader `_to_bool`, and the clamping `load_config` applies before
  the game ever sees the values. Reading the JSON file is abstracted away:
  the input is the record of values found under each recognised key.
 */
module Config {
  import opened Optional
  import Text

  /** How a lobby turns into a running game. */
  datatype StartMode = Vote | Auto

  /** The configuration fields the game state machine consumes. */
  datatype AppConfig = AppConfig(
    livesPerPlayer: int,
    timerMinSeconds: int,
    timerMaxSeconds: int,
    startMode: StartMode,
    minPlayersToStart: int,
    echoTypingToSender: bool,
    normalizeSpellings: bool)

  /** The dataclass defaults. */
  const Defaults: AppConfig := AppConfig(3, 20, 30, Vote, 1, false, true)

  /** A JSON value as `json.load` produces it; numbers are not told apart into int and float. */
  datatype Json =
    | JBool(b: bool)
    | JString(s: string)
    | JNumber(n: real)
    | JNull
    | JArray(items: seq<Json>)
    | JObject(fields: seq<(string, Json)>)

  /**
    What the configuration file holds under each key. An integer field holds
    what Python's `int()` made of the value, and `None` when the key is
    missing or `int()` failed (both fall back to the default).
   */
  datatype Raw = Raw(
    livesPerPlayer: Option<int>,
    timerMinSeconds: Option<int>,
    timerMaxSeconds: Option<int>,
    startMode: Option<Json>,
    minPlayersToStart: Option<int>,
    echoTypingToSender: Option<Json>,
    normalizeSpellings: Option<Json>)

  /** An empty (or missing) configuration file. */
  const NoFile: Raw := Raw(None, None, None, None, None, None, None)

  const TrueWords: seq<string> := ["1", "true", "yes", "y", "on"]
  const FalseWords: seq<string> := ["0", "false", "no", "n", "off"]

  /** The form of a string `_to_bool` compares: stripped, then lower-cased. */
  function Keyword(s: string): string
  {
    Text.AsciiLower(Text.Strip(s))
  }

  /** `_to_bool`: booleans pass through, the ten keywords decide, everything else is the default. */
  function ToBool(v: Json, default: bool): (r: bool)
    ensures v.JBool? ==> r == v.b
    ensures v.JString? && Keyword(v.s) in TrueWords ==> r
    ensures v.JString? && Keyword(v.s) in FalseWords ==> !r
    ensures !v.JBool? && !(v.JString? && Keyword(v.s) in TrueWords + FalseWords) ==> r == default
  {
    match v
    case JBool(b) => b
    case JString(s) =>
      var k := Keyword(s);
      KeywordListsDisjoint(k);
      if k in TrueWords then true
      else if k in FalseWords then false
      else default
    case _ => default
  }

  /** The start mode found in the file: only the exact strings "vote" and "auto" are accepted. */
  function ParseStartMode(v: Json): (m: StartMode)
    ensures v == JString("auto") <==> m == Auto
  {
    if v == JString("vote") then Vote
    else if v == JString("auto") then Auto
    else Defaults.startMode
  }

  /** What every configuration produced by `LoadConfig` satisfies. */
  predicate WellFormed(c: AppConfig)
  {
    && 1 <= c.timerMinSeconds <= c.timerMaxSeconds
    && 1 <= c.minPlayersToStart
  }

  /** `load_config` after the file has been read: defaults, then clamping. */
  function LoadConfig(raw: Raw): (c: AppConfig)
    ensures WellFormed(c)
    ensures c.livesPerPlayer == raw.livesPerPlayer.GetOr(Defaults.livesPerPlayer)
    ensures var m := raw.minPlayersToStart.GetOr(Defaults.minPlayersToStart);
            && (m >= 1 ==> c.minPlayersToStart == m)
            && (m < 1 ==> c.minPlayersToStart == 1)
    ensures var lo := raw.timerMinSeconds.GetOr(Defaults.timerMinSeconds);
            && (lo >= 1 ==> c.timerMinSeconds == lo)
            && (lo < 1 ==> c.timerMinSeconds == 1)
    ensures var hi := raw.timerMaxSeconds.GetOr(Defaults.timerMaxSeconds);
            && (hi >= c.timerMinSeconds ==> c.timerMaxSeconds == hi)
            && (hi < c.timerMinSeconds ==> c.timerMaxSeconds == c.timerMinSeconds)
    ensures raw.startMode.None? ==> c.startMode == Defaults.startMode
    ensures c.startMode == Auto <==> raw.startMode == Some(JString("auto"))
    ensures c.echoTypingToSender == ToBool(raw.echoTypingToSender.GetOr(JBool(Defaults.echoTypingToSender)),
                                           Defaults.echoTypingToSender)
    ensures raw.echoTypingToSender.None? ==> c.echoTypingToSender == Defaults.echoTypingToSender
    ensures c.normalizeSpellings == ToBool(raw.normalizeSpellings.GetOr(JBool(Defaults.normalizeSpellings)),
                                           Defaults.normalizeSpellings)
    ensures raw.normalizeSpellings.None? ==> c.normalizeSpellings == Defaults.normalizeSpellings
  {
    var lives := raw.livesPerPlayer.GetOr(Defaults.livesPerPlayer);
    var tmax0 := raw.timerMaxSeconds.GetOr(Defaults.timerMaxSeconds);
    var mode := ParseStartMode(raw.startMode.GetOr(JString("vote")));
    var minp := AtLeastOne(raw.minPlayersToStart.GetOr(Defaults.minPlayersToStart));
    var echo := Flag(raw.echoTypingToSender, Defaults.echoTypingToSender);
    var norm := Flag(raw.normalizeSpellings, Defaults.normalizeSpellings);
    var tmin := AtLeastOne(raw.timerMinSeconds.GetOr(Defaults.timerMinSeconds));
    var tmax := if tmax0 < tmin then tmin else tmax0;
    AppConfig(lives, tmin, tmax, mode, minp, echo, norm)
  }

  /** The clamp applied to the minimum player count and the minimum timer: below 1 becomes 1. */
  function AtLeastOne(x: int): (r: int)
    ensures r >= 1
    ensures x >= 1 ==> r == x
    ensures x < 1 ==> r == 1
  {
    if x < 1 then 1 else x
  }

  /** A boolean setting: `_to_bool` of the value found, or of the default when the key is missing. */
  function Flag(v: Option<Json>, default: bool): (b: bool)
    ensures v.None? ==> b == default
    ensures b == ToBool(v.GetOr(JBool(default)), default)
  {
    ToBool(v.GetOr(JBool(default)), default)
  }

  /** The file that spells out a configuration value by value. */
  function Render(c: AppConfig): Raw
  {
    Raw(Some(c.livesPerPlayer),
        Some(c.timerMinSeconds),
        Some(c.timerMaxSeconds),
        Some(JString(if c.startMode == Auto then "auto" else "vote")),
        Some(c.minPlayersToStart),
        Some(JBool(c.echoTypingToSender)),
        Some(JBool(c.normalizeSpellings)))
  }

  /** Missing keys take the dataclass defaults, which need no clamping. */
  lemma EmptyFileGivesDefaults()
    ensures LoadConfig(NoFile) == Defaults
  {
  }

  /**
    Writing a configuration out and loading it back gives it back exactly
    when it is already within the clamping bounds.
   */
  lemma RenderRoundTrip(c: AppConfig)
    ensures LoadConfig(Render(c)) == c <==> WellFormed(c)
  {
    var r := LoadConfig(Render(c));
    assert ToBool(JBool(c.echoTypingToSender), false) == c.echoTypingToSender;
    assert ToBool(JBool(c.normalizeSpellings), true) == c.normalizeSpellings;
    if WellFormed(c) {
      assert r.startMode == c.startMode;
    }
  }

  /** Loading is idempotent: a loaded configuration reloads to itself. */
  lemma LoadIdempotent(raw: Raw)
    ensures LoadConfig(Render(LoadConfig(raw))) == LoadConfig(raw)
  {
    RenderRoundTrip(LoadConfig(raw));
  }

  /** Raising the minimum to 1 drags a smaller maximum along with it. */
  lemma TimerMinRaisedDragsMax(raw: Raw)
    requires raw.timerMinSeconds.GetOr(Defaults.timerMinSeconds) < 1
    requires raw.timerMaxSeconds.GetOr(Defaults.timerMaxSeconds) < 1
    ensures LoadConfig(raw).timerMinSeconds == 1 && LoadConfig(raw).timerMaxSeconds == 1
  {
  }

  /** The keyword lists are disjoint, so a keyword never means both. */
  lemma KeywordListsDisjoint(w: string)
    ensures !(w in TrueWords && w in FalseWords)
  {
  }

  /** Whitespace around a string never changes what `_to_bool` makes of it. */
  lemma ToBoolIgnoresPadding(p: string, w: string, q: string, d: bool)
    requires Text.AllSpace(p) && Text.AllSpace(q)
    ensures ToBool(JString(p + w + q), d) == ToBool(JString(w), d)
  {
    Text.StripPadded(p, w, q);
  }

  /** Upper-case keywords count: "YES" is true. */
  lemma UpperYesIsTrue(d: bool)
    ensures ToBool(JString("YES"), d)
  {
    Text.StripUnpadded("YES");
    assert Text.AsciiLower("YES") == "yes" by {
      assert Text.LowerChar('Y') == 'y' && Text.LowerChar('E') == 'e' && Text.LowerChar('S') == 's';
    }
  }

  /** Mixed-case keywords count: "Off" is false. */
  lemma MixedOffIsFalse(d: bool)
    ensures !ToBool(JString("Off"), d)
  {
    Text.StripUnpadded("Off");
    assert Text.AsciiLower("Off") == "off" by {
      assert Text.LowerChar('O') == 'o' && Text.LowerChar('f') == 'f';
    }
  }

  /** Together: `" YES "` reads as true. */
  lemma PaddedYesIsTrue(d: bool)
    ensures ToBool(JString(" YES "), d)
  {
    assert " YES " == " " + "YES" + " ";
    ToBoolIgnoresPadding(" ", "YES", " ", d);
    UpperYesIsTrue(d);
  }

  /** Numbers are not booleans to `_to_bool`: 0 and 1 keep the default. */
  lemma NumbersKeepDefault(d: bool)
    ensures ToBool(JNumber(0.0), d) == d && ToBool(JNumber(1.0), d) == d
    ensures ToBool(JNull, d) == d
  {
  }

  /** A start mode other than the two exact strings falls back to voting. */
  lemma UnknownStartModeIsVote(v: Json)
    requires v != JString("vote") && v != JString("auto")
    ensures LoadConfig(NoFile.(startMode := Some(v))).startMode == Vote
  {
  }
}

=== FILE: game_props.dfy ===
/**
  Properties of the game across steps: one dispatcher over every entry point
  and timer firing, whole runs of events from a fresh game, the turn
  rotation, answer comparison, the lost-connection path of the lobby
  announcement, and the scenarios of the unit tests.
 */
module GameProps {
  import opened Optional
  import opened Seqs
  import Text
  import Config
  import opened GameState

  // ── One dispatcher over every event ────────────────────────────

  /**
    Everything that can happen to the game: a locked public call or a timer
    firing. A `PASS` message calls `pass_turn`, which `GameState` does not
    define; the connection loop then fails and closes with `remove_player`,
    which is `Disconnect`.
   */
  datatype Event =
    | Join(conn: Conn, name: string)                       // `add_player`
    | Disconnect(conn: Conn)                               // `remove_player`; also what a `PASS` message ends in
    | Submit(conn: Conn, text: string)                     // `submit_answer`
    | Typing(conn: Conn, text: string, failing: set<Conn>) // `broadcast_typing`
    | VoteToStart(conn: Conn)                              // `vote_start`
    | TimerFired                                           // the countdown calls `_handle_timeout`
    | DelayElapsed                                         // the delay calls `_safe_next_turn`

  /**
    The model assumes each socket joins once, as the shipped client does: a
    join is by a connection not yet on the roster. The server itself does not
    refuse a second join; a repeated one would duplicate the roster entry.
   */
  predicate Enabled(s: State, e: Event)
  {
    e.Join? ==> e.conn !in s.players
  }

  /**
    What every step keeps: the invariant; a running game returns to the
    lobby only once nobody is left; no winner is ever announced; and, with
    at least one life per player, nobody rostered is ever at zero lives.
   */
  predicate StepOk(env: Env, s: State, r: Step)
  {
    && Valid(r.st)
    && (s.running && !r.st.running ==> |r.st.order| == 0)
    && NoGameOver(r.out)
    && (env.cfg.livesPerPlayer >= 1 && LivesPositive(s) ==> LivesPositive(r.st))
  }

  /** A fresh connection joins. */
  function OnJoin(env: Env, s: State, c: Conn, name: string, d: Draw, now: real): (r: Step)
    requires Valid(s) && DrawOk(env, d) && c !in s.players
    ensures StepOk(env, s, r)
    ensures s.running ==> r.st.running
  {
    AddPlayerAnnounces(env, s, c, name, d, now);
    AddPlayer(env, s, c, name, d, now)
  }

  /** A connection closes. */
  function OnLeave(env: Env, s: State, c: Conn, d: Draw, now: real): (r: Step)
    requires Valid(s) && DrawOk(env, d)
    ensures StepOk(env, s, r)
  {
    RemovePlayer(env, s, c, d, now)
  }

  /** A connection submits an answer. */
  function OnSubmit(env: Env, s: State, c: Conn, text: string, d: Draw, now: real): (r: Step)
    requires Valid(s) && DrawOk(env, d)
    ensures StepOk(env, s, r)
    ensures r.st.running == s.running
  {
    if HasTurn(s, c) && Matches(env, s.answers, text) then
      SubmitMatchAdvances(env, s, c, text, d, now);
      SubmitAnswer(env, s, c, text, d, now)
    else SubmitAnswer(env, s, c, text, d, now)
  }

  /** A connection reports what it is typing. */
  function OnTyping(env: Env, s: State, c: Conn, text: string, failing: set<Conn>): (r: Step)
    requires Valid(s)
    ensures StepOk(env, s, r)
  {
    TypingNeverNamesWinner(s, c, text, failing);
    BroadcastTyping(s, c, text, failing)
  }

  /** Nothing, or a single typing broadcast. */
  predicate OnlyTyping(o: seq<Effect>)
  {
    o == [] || (|o| == 1 && o[0].Broadcast? && o[0].msg.TypingMsg?)
  }

  /** Relaying typing sends only the typing message, whoever drops out on the way. */
  lemma TypingNeverNamesWinner(s: State, c: Conn, text: string, failing: set<Conn>)
    requires Valid(s)
    ensures OnlyTyping(BroadcastTyping(s, c, text, failing).out)
    ensures NoGameOver(BroadcastTyping(s, c, text, failing).out)
  {
    var o := BroadcastTyping(s, c, text, failing).out;
    assert OnlyTyping(o);
    TypingIsNoWinner(o);
  }

  /** Typing broadcasts never name a winner. */
  lemma TypingIsNoWinner(o: seq<Effect>)
    requires OnlyTyping(o)
    ensures NoGameOver(o)
  {
    if o != [] {
      assert o == [o[0]];
    }
  }

  /** A connection votes to start. */
  function OnVote(env: Env, s: State, c: Conn, d: Draw, now: real): (r: Step)
    requires Valid(s) && DrawOk(env, d)
    ensures StepOk(env, s, r)
  {
    if VoteHeard(env, s, c) then
      VoteStartAnnounces(env, s, c, d, now);
      VoteStart(env, s, c, d, now)
    else VoteStart(env, s, c, d, now)
  }

  /** The countdown fires. */
  function OnTimer(env: Env, s: State): (r: Step)
    requires Valid(s)
    ensures StepOk(env, s, r)
  {
    TimeoutNeverEndsWithWinner(s);
    HandleTimeout(s)
  }

  /** The post-explosion delay fires. */
  function OnDelay(env: Env, s: State, d: Draw, now: real): (r: Step)
    requires Valid(s) && DrawOk(env, d)
    ensures StepOk(env, s, r)
  {
    SafeNextTurn(env, s, d, now)
  }

  /** One atomic step, dispatched to the entry point the event calls. */
  function Next(env: Env, s: State, e: Event, d: Draw, now: real): (r: Step)
    requires Valid(s) && DrawOk(env, d) && Enabled(s, e)
    ensures StepOk(env, s, r)
  {
    match e
    case Join(c, name) => OnJoin(env, s, c, name, d, now)
    case Disconnect(c) => OnLeave(env, s, c, d, now)
    case Submit(c, text) => OnSubmit(env, s, c, text, d, now)
    case Typing(c, text, failing) => OnTyping(env, s, c, text, failing)
    case VoteToStart(c) => OnVote(env, s, c, d, now)
    case TimerFired => OnTimer(env, s)
    case DelayElapsed => OnDelay(env, s, d, now)
  }

  /** One event together with what the outside world supplied for it. */
  datatype Input = Input(e: Event, d: Draw, now: real)

  /** One input of a run; a repeated join by a connection already on the roster is outside the model and is dropped. */
  function Apply(env: Env, s: State, x: Input): (r: Step)
    requires Valid(s) && DrawOk(env, x.d)
    ensures Valid(r.st)
    ensures NoGameOver(r.out)
    ensures env.cfg.livesPerPlayer >= 1 && LivesPositive(s) ==> LivesPositive(r.st)
  {
    if Enabled(s, x.e) then Next(env, s, x.e, x.d, x.now) else Step(s, [])
  }

  /**
    A run of events, their effects concatenated.
   */
  function Run(env: Env, s: State, inputs: seq<Input>): (r: Step)
    requires Valid(s)
    requires forall i :: 0 <= i < |inputs| ==> DrawOk(env, inputs[i].d)
    ensures Valid(r.st)
    ensures NoGameOver(r.out)
    ensures env.cfg.livesPerPlayer >= 1 && LivesPositive(s) ==> LivesPositive(r.st)
    decreases |inputs|
  {
    if |inputs| == 0 then Step(s, [])
    else
      var a := Apply(env, s, inputs[0]);
      var b := Run(env, a.st, inputs[1..]);
      Step(b.st, a.out + b.out)
  }

  /** A fresh game satisfies the invariant and has nobody at zero lives. */
  lemma InitValid()
    ensures Valid(Init) && LivesPositive(Init) && !Init.running
  {
  }

  /**
    Whatever happens from a fresh game, `GAME_OVER` is never sent: the game
    ends only once the roster is empty, and then there is nobody to name.
   */
  lemma NoWinnerEverAnnounced(env: Env, inputs: seq<Input>)
    requires forall i :: 0 <= i < |inputs| ==> DrawOk(env, inputs[i].d)
    ensures NoGameOver(Run(env, Init, inputs).out)
    ensures env.cfg.livesPerPlayer >= 1 ==> LivesPositive(Run(env, Init, inputs).st)
  {
    InitValid();
  }

  /**
    A single survivor keeps playing: the timeout that eliminates one of the
    last two players leaves the game running with one player, no winner named.
   */
  lemma LastSurvivorKeepsPlaying(s: State)
    requires Valid(s) && s.running && |s.order| == 2 && s.players[Active(s)].lives <= 1
    ensures var r := HandleTimeout(s);
            && r.st.running && |r.st.order| == 1
            && NoGameOver(r.out)
            && r.out[|r.out| - 1] == ScheduleNextTurn
  {
    TimeoutEliminates(s);
    TimeoutNeverEndsWithWinner(s);
  }

  // ── Rotation ───────────────────────────────────────────────────

  /** The pointer after `k` consecutive `_advance_turn` calls. */
  function AdvanceBy(s: State, k: nat): (r: State)
    requires RosterOk(s)
    ensures RosterOk(r) && r.order == s.order && r.players == s.players
    decreases k
  {
    if k == 0 then s else AdvanceTurn(AdvanceBy(s, k - 1))
  }

  /**
    Within one round, `k` passes move the turn `k` places on, wrapping from
    the end of the roster back to the first player.
   */
  lemma {:induction false} AdvanceWithinRound(s: State, k: nat)
    requires RosterOk(s) && k < |s.order|
    ensures AdvanceBy(s, k).turn == if s.turn + k < |s.order| then s.turn + k else s.turn + k - |s.order|
    decreases k
  {
    if k > 0 {
      AdvanceWithinRound(s, k - 1);
    }
  }

  /** How many passes take the pointer from `from` to `to` in a roster of `n`. */
  function Distance(from: nat, to: nat, n: nat): (k: nat)
    requires from < n && to < n
    ensures k < n
    ensures if from + k < n then from + k == to else from + k - n == to
  {
    if to >= from then to - from else n - from + to
  }

  /** Every rostered player gets the turn within one round of passes. */
  lemma EveryoneGetsATurn(s: State, c: Conn)
    requires RosterOk(s) && c in s.order
    ensures exists k: nat :: k < |s.order| && Active(AdvanceBy(s, k)) == c
  {
    var idx := IndexOf(s.order, c);
    var k := Distance(s.turn, idx, |s.order|);
    AdvanceWithinRound(s, k);
    var v := AdvanceBy(s, k);
    assert v.turn == idx;
    ActiveAt(v);
    assert Active(v) == c;
  }

  // ── Answer comparison ──────────────────────────────────────────

  /** No ASCII capital letter occurs in the word. */
  predicate NoUpper(w: string)
  {
    forall i :: 0 <= i < |w| ==> !('A' <= w[i] <= 'Z')
  }

  /**
    With `normalize_spellings` off the guess is lowered but the answers are
    not: an accepted answer spelled with a capital letter can never be
    matched, whatever is typed.
   */
  lemma CapitalisedAnswerNeverMatches(env: Env, answers: seq<string>, text: string, a: string)
    requires !env.cfg.normalizeSpellings
    requires NoUpper(env.lower(text))
    requires a in answers && !NoUpper(a)
    ensures Guess(env, text) != a
  {
    StripKeepsNoUpper(env.lower(text));
  }

  /** Stripping a word without capitals leaves none. */
  lemma StripKeepsNoUpper(w: string)
    requires NoUpper(w)
    ensures NoUpper(Text.Strip(w))
  {
    var g := Text.Strip(w);
    var lead := Text.LeadingSpace(w);
    assert g == w[lead..lead + |g|];
    NoUpperSlice(w, lead, lead + |g|);
  }

  /** A slice of a word without capitals has none either. */
  lemma NoUpperSlice(w: string, lo: nat, hi: nat)
    requires NoUpper(w) && lo <= hi <= |w|
    ensures NoUpper(w[lo..hi])
  {
    forall i | 0 <= i < hi - lo ensures !('A' <= w[lo..hi][i] <= 'Z') {
      assert w[lo..hi][i] == w[lo + i];
    }
  }

  // ── A connection lost during the lobby announcement ────────────

  /** The state `vote_start` reaches just before its broadcast. */
  function WithVote(s: State, ws: Conn): (r: State)
    requires Valid(s) && !s.running && ws in s.players
    ensures Valid(r) && r == s.(votes := s.votes + {ws})
  {
    s.(votes := s.votes + {ws})
  }

  /**
    `vote_start` as written when the lobby announcement fails to reach
    `lost`: `_broadcast` removes it with `remove_player_internal`, which keeps
    its vote, and the start test then compares the vote count, stale vote
    included, with the shrunken roster.
   */
  function VoteStartLosingAsWritten(env: Env, s: State, ws: Conn, lost: Conn, d: Draw, now: real): (r: Step)
    requires Valid(s) && DrawOk(env, d) && lost in s.players
    ensures RosterOk(r.st)
    ensures !VoteHeard(env, s, ws) ==> r == Step(s, [])
    ensures VoteHeard(env, s, ws) ==> r.st.order == Without(s.order, lost)
    ensures VoteHeard(env, s, ws) ==>
              (r.st.running <==> |s.votes + {ws}| == |s.order| - 1)
  {
    if !VoteHeard(env, s, ws) then Step(s, [])
    else
      var s1 := WithVote(s, ws);
      var lobby := BroadcastLobby(s1);
      var rm := RemovePlayerInternalAsWritten(s1, lost);
      var s2 := rm.st;
      PlayerCount(s2);
      if |s2.votes| == |s2.order| then
        assert |s2.order| > 0;
        var g := StartGame(env, s2.(votes := {}), d, now);
        Step(g.st, [lobby] + rm.out + g.out)
      else
        Step(s2, [lobby] + rm.out)
  }

  /**
    The same with the removal discarding the vote, and the start test
    requiring someone to be left: the corrected behaviour.
   */
  function VoteStartLosing(env: Env, s: State, ws: Conn, lost: Conn, d: Draw, now: real): (r: Step)
    requires Valid(s) && DrawOk(env, d) && lost in s.players
    ensures Valid(r.st)
    ensures !VoteHeard(env, s, ws) ==> r == Step(s, [])
    ensures VoteHeard(env, s, ws) ==> r.st.order == Without(s.order, lost)
  {
    if !VoteHeard(env, s, ws) then Step(s, [])
    else
      var s1 := WithVote(s, ws);
      var lobby := BroadcastLobby(s1);
      var rm := RemovePlayerInternal(s1, lost);
      var s2 := rm.st;
      if |s2.votes| == |s2.order| && |s2.order| > 0 then
        var g := StartGame(env, s2, d, now);
        Step(g.st, [lobby] + rm.out + g.out)
      else
        Step(s2, [lobby] + rm.out)
  }

  /**
    With the correction, a lost connection during the lobby announcement
    starts the game exactly when every player left on the roster has voted.
   */
  lemma LobbyLossStartsOnlyWhenAllVoted(env: Env, s: State, ws: Conn, lost: Conn, d: Draw, now: real)
    requires Valid(s) && DrawOk(env, d) && lost in s.players && VoteHeard(env, s, ws)
    ensures var r := VoteStartLosing(env, s, ws, lost, d, now);
            r.st.running <==> |r.st.order| > 0 && forall c :: c in r.st.order ==> c in s.votes + {ws}
  {
    var s1 := WithVote(s, ws);
    var rm := RemovePlayerInternal(s1, lost);
    AllVotedIff(rm.st);
    assert forall c :: c in rm.st.order ==> (c in rm.st.votes <==> c in s.votes + {ws});
  }

  /** The example of the as-written start: three players, one vote in, a voter lost. */
  function ThreePlayerLobby(): (s: State)
    ensures Valid(s) && !s.running
  {
    var s := Init.(order := [1, 2, 3],
                   players := map[1 := Player("A", 3), 2 := Player("B", 3), 3 := Player("C", 3)],
                   votes := {1});
    assert NoDup(s.order);
    s
  }

  /** An environment with the default configuration and a one-clue dictionary. */
  function DefaultEnv(): (env: Env)
    ensures env.cfg == Config.Defaults && DrawOk(env, Draw("cat", 20))
  {
    Env(Config.Defaults, map["cat" := ["cat"]], (t: string) => t, (t: string) => t)
  }

  /**
    As written, "A" votes and "B" votes; the lobby announcement fails to
    reach "A", who is removed with the vote kept; two votes against two
    players start the game although "C" never voted.
   */
  lemma StaleVoteStartsGame()
    ensures var s := ThreePlayerLobby();
            var r := VoteStartLosingAsWritten(DefaultEnv(), s, 2, 1, Draw("cat", 20), 0.0);
            && r.st.running
            && 3 in r.st.order && 3 !in s.votes + {2}
  {
    var s := ThreePlayerLobby();
    var env := DefaultEnv();
    assert VoteHeard(env, s, 2);
    assert s.votes + {2} == {1, 2};
    assert |{1, 2}| == 2 by {
      assert {1, 2} == {1} + {2};
    }
    assert Without(s.order, 1) == [2, 3] by {
      RemoveFirstIsWithout(s.order, 1);
      assert IndexOf(s.order, 1) == 0;
    }
  }

  /** The corrected start keeps the lobby in the same situation: "C" has not voted. */
  lemma CorrectedKeepsLobby()
    ensures var s := ThreePlayerLobby();
            !VoteStartLosing(DefaultEnv(), s, 2, 1, Draw("cat", 20), 0.0).st.running
  {
    var s := ThreePlayerLobby();
    var env := DefaultEnv();
    assert VoteHeard(env, s, 2);
    assert Without(s.order, 1) == [2, 3] by {
      RemoveFirstIsWithout(s.order, 1);
      assert IndexOf(s.order, 1) == 0;
    }
    LobbyLossStartsOnlyWhenAllVoted(env, s, 2, 1, Draw("cat", 20), 0.0);
    var r := VoteStartLosing(env, s, 2, 1, Draw("cat", 20), 0.0);
    assert r.st.order == [2, 3];
    assert 3 in r.st.order && 3 !in s.votes + {2};
  }

  /** While the game runs there are no votes, so both removals coincide. */
  lemma InternalRemovalAgreesWhileRunning(s: State, ws: Conn)
    requires Valid(s) && s.running && ws in s.players
    ensures RemovePlayerInternal(s, ws) == RemovePlayerInternalAsWritten(s, ws)
  {
  }

  // ── The unit-test scenarios ────────────────────────────────────

  /** A lone player who joins is sent the lobby with just their name, and leaving empties the game. */
  lemma JoinThenLeave(env: Env, d: Draw)
    requires env.cfg == Config.Defaults && DrawOk(env, d)
    ensures var j := AddPlayer(env, Init, 1, "Alice", d, 0.0);
            && j.out == [Broadcast([1], LobbyMsg(1, ["Alice"], []))]
            && var l := RemovePlayer(env, j.st, 1, d, 0.0);
               && 1 !in l.st.players && l.st.order == [] && !l.st.running && l.out == []
  {
    InitValid();
    AddPlayerAnnounces(env, Init, 1, "Alice", d, 0.0);
    var j := AddPlayer(env, Init, 1, "Alice", d, 0.0);
    var joined := Joined(Init, 1, "Alice", env.cfg.livesPerPlayer);
    assert joined.order == [1] && joined.votes == {};
    assert |joined.players| == 1;
    assert NamesOf(joined.players, joined.order) == ["Alice"];
    assert Voters(joined) == [];
    assert NamesOf(joined.players, Voters(joined)) == [];
    assert BroadcastLobby(joined) == Broadcast([1], LobbyMsg(1, ["Alice"], []));
    assert j.out == [BroadcastLobby(joined)];
    assert j.st.order == [1];
  }

  /** The lobby after "A" and "B" join a default game. */
  function TwoJoined(env: Env, d: Draw): State
    requires env.cfg == Config.Defaults && DrawOk(env, d)
  {
    InitValid();
    var a := AddPlayer(env, Init, 1, "A", d, 0.0).st;
    AddPlayer(env, a, 2, "B", d, 0.0).st
  }

  /** In vote mode two joins leave both players waiting in the lobby with no votes. */
  lemma TwoJoinedWaitInLobby(env: Env, d: Draw)
    requires env.cfg == Config.Defaults && DrawOk(env, d)
    ensures var b := TwoJoined(env, d);
            Valid(b) && b.order == [1, 2] && b.votes == {} && !b.running
  {
    InitValid();
    var a := AddPlayer(env, Init, 1, "A", d, 0.0).st;
    assert a.order == [1] && a.votes == {} && !a.running;
  }

  /** With two players in vote mode, one vote keeps the lobby. */
  lemma OneVoteOfTwoKeepsLobby(env: Env, d: Draw)
    requires env.cfg == Config.Defaults && DrawOk(env, d)
    ensures var b := TwoJoined(env, d);
            && Valid(b)
            && var v1 := VoteStart(env, b, 1, d, 0.0).st;
               !v1.running && v1 == b.(votes := {1})
  {
    TwoJoinedWaitInLobby(env, d);
    var b := TwoJoined(env, d);
    assert VoteHeard(env, b, 1);
    assert 2 in b.order && 2 !in b.votes + {1};
  }

  /** With two players in vote mode, the second vote starts the game with the first player. */
  lemma TwoVotesStartTheGame(env: Env, d: Draw)
    requires env.cfg == Config.Defaults && DrawOk(env, d)
    ensures var b := TwoJoined(env, d);
            && Valid(b)
            && var v1 := VoteStart(env, b, 1, d, 0.0).st;
               && Valid(v1)
               && var v2 := VoteStart(env, v1, 2, d, 0.0).st;
                  v2.running && Active(v2) == 1
  {
    TwoJoinedWaitInLobby(env, d);
    OneVoteOfTwoKeepsLobby(env, d);
    var b := TwoJoined(env, d);
    var v1 := VoteStart(env, b, 1, d, 0.0).st;
    assert VoteHeard(env, v1, 2);
    assert v1.order == [1, 2] && v1.votes + {2} == {1, 2};
    VoteStartAnnounces(env, v1, 2, d, 0.0);
  }
}

=== FILE: game_state.dfy ===
/**
  The turn and lobby state machine of `GameState`. Every public operation and
  both timer callbacks run under one lock in `src/game_state.py`, so each is modelled
  as one atomic step: a pure function from the state (plus the inputs the
  outside world supplies: the clock reading, the random draw) to the next
  state and the effects the step emits, in emission order.
 */
module GameState {
  import opened Optional
  import opened Seqs
  import Text
  import Config

  /** A player connection; only compared for identity. */
  type Conn = nat

  /** A roster entry: display name and remaining lives. */
  datatype Player = Player(name: string, lives: int)

  /** A live countdown handle; `id` tells one armed `threading.Timer` from another. */
  datatype Countdown = Countdown(id: nat, seconds: real)

  /** The fields of `GameState` that change while the game is played. */
  datatype State = State(
    order: seq<Conn>,              // `player_order`: turn rotation, in join order
    players: map<Conn, Player>,    // `players`
    turn: int,                     // `current_turn`
    running: bool,                 // `is_running`: false is the lobby
    votes: set<Conn>,              // `start_votes`
    question: string,
    answers: seq<string>,
    prevQuestion: string,
    prevAnswers: seq<string>,
    timer: Option<Countdown>,      // `timer`
    endsAt: Option<real>,          // `timer_ends_at`
    nextTimerId: nat)              // source of fresh countdown ids

  /** The state `__init__` builds. */
  const Init: State := State([], map[], 0, false, {}, "", [], "", [], None, None, 0)

  /**
    What the game is constructed with: the configuration, the clue dictionary
    and the two text functions that are not modelled (`str.lower` and
    `remove_accents`).
   */
  datatype Env = Env(
    cfg: Config.AppConfig,
    dict: map<string, seq<string>>,
    lower: string -> string,
    removeAccents: string -> string)

  /** The outcome of the two random calls of a turn start: `random.choice` and `random.randint`. */
  datatype Draw = Draw(clue: string, seconds: int)

  /** A draw the random calls can produce. */
  predicate DrawOk(env: Env, d: Draw)
  {
    d.clue in env.dict && env.cfg.timerMinSeconds <= d.seconds <= env.cfg.timerMaxSeconds
  }

  /** The messages sent to connections. */
  datatype Msg =
    | LobbyMsg(count: nat, names: seq<string>, startVotes: seq<string>)
    | NewTurnMsg(question: string, activePlayer: string, standings: seq<Player>,
                 answers: seq<string>, previousQuestion: string, previousAnswers: seq<string>)
    | ValidMsg(answer: string)
    | InvalidMsg
    | TypingMsg(player: string, text: string)
    | ExplodeMsg(player: string, eliminated: bool)
    | GameOverMsg(winner: string)

  /** What a step does to the outside world. */
  datatype Effect =
    | Broadcast(to: seq<Conn>, msg: Msg)   // the same message to each listed connection
    | Send(conn: Conn, msg: Msg)           // one private message
    | ScheduleNextTurn                     // arm the post-explosion delay that fires `DelayElapsed`

  /** The next state and what the step emitted. */
  datatype Step = Step(st: State, out: seq<Effect>)

  // ── Invariant ──────────────────────────────────────────────────

  /** The roster and the turn pointer agree. */
  predicate RosterOk(s: State)
  {
    && NoDup(s.order)
    && (forall c :: c in s.order ==> c in s.players)
    && (forall c :: c in s.players ==> c in s.order)
    && (if |s.order| == 0 then s.turn == 0 else 0 <= s.turn < |s.order|)
  }

  /** Phase, votes and countdown agree. */
  predicate PhaseOk(s: State)
  {
    && (s.running ==> |s.order| > 0 && s.votes == {})
    && s.votes <= s.players.Keys
    && (!s.running ==> s.timer.None? && s.endsAt.None?)
    && (s.timer.Some? ==> s.endsAt.Some? && s.timer.value.id < s.nextTimerId)
  }

  /** The invariant every step preserves. */
  predicate Valid(s: State)
  {
    RosterOk(s) && PhaseOk(s)
  }

  /** The connection whose turn it is: `player_order[current_turn % len(player_order)]`. */
  function Active(s: State): Conn
    requires |s.order| > 0
  {
    s.order[s.turn % |s.order|]
  }

  /** The player after the active one in rotation order. */
  function Successor(s: State): Conn
    requires |s.order| > 0
  {
    s.order[(s.turn + 1) % |s.order|]
  }

  /** Every rostered player has at least one life left. */
  predicate LivesPositive(s: State)
  {
    forall c :: c in s.players ==> s.players[c].lives >= 1
  }

  /** The effect announces a winner. */
  predicate IsGameOver(e: Effect)
  {
    (e.Broadcast? || e.Send?) && e.msg.GameOverMsg?
  }

  /** No effect in the list announces a winner. */
  predicate NoGameOver(out: seq<Effect>)
  {
    forall e :: e in out ==> !IsGameOver(e)
  }

  /** The effect carries a `Valid` message. */
  predicate IsValidEffect(e: Effect)
  {
    (e.Broadcast? || e.Send?) && e.msg.ValidMsg?
  }

  /** The roster has as many entries in `players` as in `player_order`. */
  lemma PlayerCount(s: State)
    requires RosterOk(s)
    ensures |s.players| == |s.order|
  {
    assert s.players.Keys == Elems(s.order);
    NoDupCard(s.order);
  }

  // ── Snapshots ──────────────────────────────────────────────────

  /** The names of the listed connections, in list order. */
  function NamesOf(players: map<Conn, Player>, cs: seq<Conn>): seq<string>
    requires forall c :: c in cs ==> c in players
  {
    seq(|cs|, i requires 0 <= i < |cs| => players[cs[i]].name)
  }

  /** Name and lives of every rostered player, in roster order. */
  function Standings(s: State): seq<Player>
    requires RosterOk(s)
  {
    seq(|s.order|, i requires 0 <= i < |s.order| => s.players[s.order[i]])
  }

  /** The rostered players who voted to start, in roster order. */
  function Voters(s: State): (vs: seq<Conn>)
    ensures forall c :: c in vs <==> c in s.order && c in s.votes
  {
    Filter(s.order, Voted(s))
  }

  /** Whether a connection has voted to start. */
  function Voted(s: State): Conn -> bool
  {
    (c: Conn) => c in s.votes
  }

  /** The voters are listed in roster order. */
  lemma VotersInRosterOrder(s: State)
    requires RosterOk(s)
    ensures InOrderOf(Voters(s), s.order)
  {
    FilterKeepsOrder(s.order, Voted(s));
  }

  /** `_broadcast_lobby`: count, names, and the names of those who voted, to everyone. */
  function BroadcastLobby(s: State): (e: Effect)
    requires RosterOk(s)
    ensures e.Broadcast? && e.to == s.order && e.msg.LobbyMsg?
  {
    Broadcast(s.order, LobbyMsg(|s.players|, NamesOf(s.players, s.order), NamesOf(s.players, Voters(s))))
  }

  /**
    The lobby snapshot names every rostered player in roster order; its vote
    list names the voters `Voters` picks, in their order, so every rostered
    voter's name is on it.
   */
  lemma LobbyListsRoster(s: State)
    requires RosterOk(s)
    ensures var m := BroadcastLobby(s).msg;
            && m.count == |s.order| && |m.names| == |s.order|
            && (forall i :: 0 <= i < |s.order| ==> m.names[i] == s.players[s.order[i]].name)
            && |m.startVotes| == |Voters(s)|
            && (forall i :: 0 <= i < |Voters(s)| ==> m.startVotes[i] == s.players[Voters(s)[i]].name)
            && (forall c :: c in s.order && c in s.votes ==> s.players[c].name in m.startVotes)
  {
    PlayerCount(s);
    var m := BroadcastLobby(s).msg;
    var vs := Voters(s);
    assert m.startVotes == NamesOf(s.players, vs);
    forall c | c in s.order && c in s.votes
      ensures s.players[c].name in m.startVotes
    {
      var i :| 0 <= i < |vs| && vs[i] == c;
      assert m.startVotes[i] == s.players[c].name;
    }
  }

  // ── Roster surgery ─────────────────────────────────────────────

  /** The turn pointer after cutting position `idx` out of a roster of `n`, as `remove_player` adjusts it. */
  function PointerAfterRemove(turn: int, idx: nat, n: nat): int
  {
    if idx < turn then turn - 1
    else if idx == turn && n - 1 > 0 then turn % (n - 1)
    else turn
  }

  /** The turn pointer after the same cut, as `remove_player_internal` adjusts it. */
  function PointerAfterRemoveInternal(turn: int, idx: nat, n: nat): int
  {
    if idx < turn then turn - 1
    else if n - 1 > 0 then turn % (n - 1)
    else turn
  }

  /** The two pointer adjustments agree whenever the pointer is in range. */
  lemma PointerAdjustmentsAgree(turn: int, idx: nat, n: nat)
    requires idx < n && 0 <= turn < n
    ensures PointerAfterRemove(turn, idx, n) == PointerAfterRemoveInternal(turn, idx, n)
  {
  }

  /** Where the adjusted pointer lands, case by case. */
  lemma PointerAfterRemoveValue(turn: int, idx: nat, n: nat)
    requires idx < n && 0 <= turn < n
    ensures idx < turn ==> PointerAfterRemove(turn, idx, n) == turn - 1
    ensures idx > turn ==> PointerAfterRemove(turn, idx, n) == turn
    ensures idx == turn && turn < n - 1 ==> PointerAfterRemove(turn, idx, n) == turn
    ensures idx == turn && turn == n - 1 ==> PointerAfterRemove(turn, idx, n) == 0
  {
    if idx == turn && turn < n - 1 {
      assert turn % (n - 1) == turn;
    }
  }

  /** Where the successor of position `turn` sits in a roster of `n`. */
  lemma SuccessorIndex(turn: int, n: nat)
    requires 0 <= turn < n
    ensures turn < n - 1 ==> (turn + 1) % n == turn + 1
    ensures turn == n - 1 ==> (turn + 1) % n == 0
  {
  }

  /**
    Cutting out someone other than the active player keeps the same player
    active; cutting out the active player hands the turn to the next one in
    rotation.
   */
  lemma PointerAfterRemoveKeepsRotation<T>(order: seq<T>, turn: int, idx: nat)
    requires idx < |order| && 0 <= turn < |order| && |order| > 1
    ensures 0 <= PointerAfterRemove(turn, idx, |order|) < |order| - 1
    ensures idx != turn ==> RemoveAt(order, idx)[PointerAfterRemove(turn, idx, |order|)] == order[turn]
    ensures idx == turn ==> RemoveAt(order, idx)[PointerAfterRemove(turn, idx, |order|)] == order[(turn + 1) % |order|]
  {
    PointerAfterRemoveValue(turn, idx, |order|);
    SuccessorIndex(turn, |order|);
  }

  /** With the pointer in range, the modulo in `Active` does nothing. */
  lemma ActiveAt(s: State)
    requires RosterOk(s) && |s.order| > 0
    ensures Active(s) == s.order[s.turn]
  {
    var n := |s.order|;
    var turn := s.turn;
    assert turn % n == turn;
  }

  /** A rostered connection is the active one exactly when it sits at the pointer. */
  lemma ActiveIffAtPointer(s: State, ws: Conn)
    requires RosterOk(s) && ws in s.players
    ensures ws == Active(s) <==> IndexOf(s.order, ws) == s.turn
  {
    ActiveAt(s);
    var idx := IndexOf(s.order, ws);
    if ws == s.order[s.turn] {
      NoDupIndex(s.order, idx, s.turn);
    }
  }

  /** The roster facts `Drop` needs, stated on the state. */
  lemma RemovalKeepsRotation(s: State, ws: Conn)
    requires RosterOk(s) && ws in s.players
    ensures var idx := IndexOf(s.order, ws);
            var order' := RemoveAt(s.order, idx);
            var turn' := PointerAfterRemove(s.turn, idx, |s.order|);
            && (if |order'| == 0 then turn' == 0 else 0 <= turn' < |order'|)
            && (|order'| > 0 && ws != Active(s) ==> order'[turn'] == Active(s))
            && (|order'| > 0 && ws == Active(s) ==> order'[turn'] == Successor(s))
  {
    var idx := IndexOf(s.order, ws);
    ActiveAt(s);
    ActiveIffAtPointer(s, ws);
    if |s.order| > 1 {
      PointerAfterRemoveKeepsRotation(s.order, s.turn, idx);
    } else {
      PointerAfterRemoveValue(s.turn, idx, |s.order|);
    }
  }

  /**
    The structural part of `remove_player` (lines 66-75): the player leaves
    `players` and `player_order`, and the pointer is re-based.
   */
  function Drop(s: State, ws: Conn): (r: State)
    requires RosterOk(s) && ws in s.players
    ensures RosterOk(r)
    ensures r == s.(order := r.order, players := r.players, turn := r.turn)
    ensures r.order == Without(s.order, ws) && |r.order| == |s.order| - 1
    ensures r.players == s.players - {ws}
    ensures IndexOf(s.order, ws) < s.turn ==> r.turn == s.turn - 1
  {
    var idx := IndexOf(s.order, ws);
    RemoveAtNoDup(s.order, idx);
    RemovalKeepsRotation(s, ws);
    RemoveFirstIsWithout(s.order, ws);
    s.(order := RemoveAt(s.order, idx),
       players := s.players - {ws},
       turn := PointerAfterRemove(s.turn, idx, |s.order|))
  }

  /**
    After `Drop` the same player is active if someone else left, and the next
    player in rotation if the active one left.
   */
  lemma DropKeepsRotation(s: State, ws: Conn)
    requires RosterOk(s) && ws in s.players
    ensures |Drop(s, ws).order| > 0 && ws != Active(s) ==> Active(Drop(s, ws)) == Active(s)
    ensures |Drop(s, ws).order| > 0 && ws == Active(s) ==> Active(Drop(s, ws)) == Successor(s)
  {
    RemovalKeepsRotation(s, ws);
    if |Drop(s, ws).order| > 0 {
      ActiveAt(Drop(s, ws));
    }
  }

  /** The structural part of `remove_player_internal` (lines 278-285): the same cut, pointer re-based its way. */
  function DropInternal(s: State, ws: Conn): (r: State)
    requires RosterOk(s) && ws in s.players
    ensures r == Drop(s, ws)
  {
    var idx := IndexOf(s.order, ws);
    PointerAdjustmentsAgree(s.turn, idx, |s.order|);
    s.(order := RemoveAt(s.order, idx),
       players := s.players - {ws},
       turn := PointerAfterRemoveInternal(s.turn, idx, |s.order|))
  }

  /**
    `_end_game`: cancel the countdown, return to the lobby, and announce the
    first remaining player as winner if anyone remains. (The dictionary's
    insertion order is the roster order, players joining once each.)
   */
  function EndGame(s: State): (r: Step)
    requires RosterOk(s)
    ensures r.st == s.(running := false, timer := None, endsAt := None)
    ensures |s.order| == 0 <==> r.out == []
    ensures |s.order| > 0 ==> r.out == [Broadcast(s.order, GameOverMsg(s.players[s.order[0]].name))]
  {
    var s1 := s.(running := false, timer := None, endsAt := None);
    PlayerCount(s);
    if |s.players| > 0 then Step(s1, [Broadcast(s.order, GameOverMsg(s.players[s.order[0]].name))])
    else Step(s1, [])
  }

  /**
    `remove_player_internal` as written: it never touches `start_votes`.
    Used by the model only through `RemovePlayerInternal`, which agrees with
    it while the game is running.
   */
  function RemovePlayerInternalAsWritten(s: State, ws: Conn): (r: Step)
    requires Valid(s) && ws in s.players
    ensures RosterOk(r.st)
    ensures r.st.order == Without(s.order, ws) && r.st.players == s.players - {ws}
    ensures r.st.votes == s.votes
    ensures r.st.running <==> s.running && |r.st.order| > 0
    ensures !s.running ==> r.st.timer.None? && r.st.endsAt.None?
    ensures r.out == []
  {
    var s1 := DropInternal(s, ws);
    PlayerCount(s1);
    if |s1.players| < 1 then EndGame(s1) else Step(s1, [])
  }

  /**
    `remove_player_internal` with the start vote discarded as well (see
    Findings): the lock-held removal path used on elimination and on failed
    delivery. It never announces a winner, because the game ends only once
    nobody is left.
   */
  function RemovePlayerInternal(s: State, ws: Conn): (r: Step)
    requires Valid(s) && ws in s.players
    ensures Valid(r.st)
    ensures r.st.order == Without(s.order, ws) && |r.st.order| == |s.order| - 1
    ensures r.st.players == s.players - {ws}
    ensures r.st.votes == s.votes - {ws}
    ensures r.st.running <==> s.running && |r.st.order| > 0
    ensures r.out == []
    ensures |r.st.order| > 0 && ws != Active(s) ==> Active(r.st) == Active(s)
    ensures |r.st.order| > 0 ==> r.st == s.(order := r.st.order, players := r.st.players,
                                            turn := r.st.turn, votes := r.st.votes)
  {
    var s1 := DropInternal(s, ws).(votes := s.votes - {ws});
    PlayerCount(s1);
    if |s1.players| < 1 then EndGame(s1)
    else
      DropKeepsRotation(s, ws);
      Step(s1, [])
  }

  /**
    The pointer after `remove_player_internal` (lines 282-285) is the one
    `remove_player` computes, so the same player stays active if someone else
    was removed, and the next player in rotation takes over if the active
    one was.
   */
  lemma RemovePlayerInternalKeepsRotation(s: State, ws: Conn)
    requires Valid(s) && ws in s.players
    ensures var r := RemovePlayerInternal(s, ws);
            && r.st.turn == PointerAfterRemove(s.turn, IndexOf(s.order, ws), |s.order|)
            && (|r.st.order| > 0 && ws != Active(s) ==> Active(r.st) == Active(s))
            && (|r.st.order| > 0 && ws == Active(s) ==> Active(r.st) == Successor(s))
  {
    DropKeepsRotation(s, ws);
  }

  /** `_advance_turn`: the pointer moves one step round the roster. */
  function AdvanceTurn(s: State): (r: State)
    requires RosterOk(s)
    ensures RosterOk(r)
    ensures r == s.(turn := r.turn)
    ensures |s.order| > 0 ==> r.turn == if s.turn + 1 < |s.order| then s.turn + 1 else 0
  {
    if |s.order| > 0 then
      SuccessorIndex(s.turn, |s.order|);
      s.(turn := (s.turn + 1) % |s.order|)
    else s
  }

  /** After `_advance_turn` the next player in rotation is active. */
  lemma AdvancePassesOn(s: State)
    requires RosterOk(s) && |s.order| > 0
    ensures Active(AdvanceTurn(s)) == Successor(s)
    ensures AdvanceTurn(s).turn == (s.turn + 1) % |s.order|
  {
    SuccessorIndex(s.turn, |s.order|);
    ActiveAt(AdvanceTurn(s));
  }

  // ── Turns and the countdown ────────────────────────────────────

  /** `_start_turn`'s announcement: the clue, whose turn it is, everyone's lives, and last round's recap. */
  function NewTurnOf(s: State): Msg
    requires RosterOk(s) && |s.order| > 0
  {
    NewTurnMsg(s.question, s.players[Active(s)].name, Standings(s), s.answers, s.prevQuestion, s.prevAnswers)
  }

  /**
    A turn announcement carries the current clue and answers, last round's
    recap and the active player's name; its standings list every rostered
    player once, in roster order, with their lives, and the entry at the
    pointer is the active player's.
   */
  lemma TurnAnnouncement(s: State)
    requires RosterOk(s) && |s.order| > 0
    ensures var m := NewTurnOf(s);
            && m.NewTurnMsg? && m.question == s.question && m.answers == s.answers
            && m.previousQuestion == s.prevQuestion && m.previousAnswers == s.prevAnswers
            && m.activePlayer == s.players[Active(s)].name
            && |m.standings| == |s.players|
            && (forall i :: 0 <= i < |s.order| ==> m.standings[i] == s.players[s.order[i]])
            && m.standings[s.turn].name == m.activePlayer
  {
    PlayerCount(s);
    ActiveAt(s);
  }

  /**
    `_start_turn`: archive the current clue, draw a new one, announce it, and
    arm a countdown only if none is live, so that a turn passed on by a valid
    answer keeps ticking on the same bomb. The running game always has a
    roster, so the early return on an empty roster never applies.
   */
  function StartTurn(env: Env, s: State, d: Draw, now: real): (r: Step)
    requires Valid(s) && s.running && DrawOk(env, d)
    ensures Valid(r.st)
    ensures r.st == s.(question := d.clue, answers := env.dict[d.clue],
                       prevQuestion := r.st.prevQuestion, prevAnswers := r.st.prevAnswers,
                       timer := r.st.timer, endsAt := r.st.endsAt, nextTimerId := r.st.nextTimerId)
    ensures s.question != "" ==> r.st.prevQuestion == s.question && r.st.prevAnswers == s.answers
    ensures s.question == "" ==> r.st.prevQuestion == s.prevQuestion && r.st.prevAnswers == s.prevAnswers
    ensures r.out == [Broadcast(s.order, NewTurnOf(r.st))]
    ensures s.timer.Some? ==> r.st.timer == s.timer && r.st.endsAt == s.endsAt
    ensures s.timer.None? ==> r.st.timer == Some(Countdown(s.nextTimerId, d.seconds as real))
                              && r.st.endsAt == Some(now + d.seconds as real)
    ensures s.timer.None? ==> env.cfg.timerMinSeconds as real <= r.st.timer.value.seconds
                                                              <= env.cfg.timerMaxSeconds as real
  {
    var s1 := if s.question != "" then s.(prevQuestion := s.question, prevAnswers := s.answers) else s;
    var s2 := s1.(question := d.clue, answers := env.dict[d.clue]);
    var announce := Broadcast(s2.order, NewTurnOf(s2));
    if s2.timer.None? then
      var s3 := s2.(timer := Some(Countdown(s2.nextTimerId, d.seconds as real)),
                    endsAt := Some(now + d.seconds as real),
                    nextTimerId := s2.nextTimerId + 1);
      Step(s3, [announce])
    else
      Step(s2, [announce])
  }

  /**
    `_reduce_timer_by_seconds(1)`: with no live countdown nothing happens;
    otherwise the countdown is replaced by a fresh one expiring one second
    earlier, but never less than one second from now.
   */
  function ReduceTimer(s: State, now: real): (r: State)
    requires Valid(s)
    ensures Valid(r)
    ensures s.timer.None? ==> r == s
    ensures s.timer.Some? ==> r == s.(timer := r.timer, endsAt := r.endsAt, nextTimerId := s.nextTimerId + 1)
    ensures s.timer.Some? ==> r.timer.Some? && r.timer.value.id != s.timer.value.id
    ensures s.timer.Some? ==> r.timer.value.seconds >= 1.0 && r.endsAt == Some(now + r.timer.value.seconds)
    ensures s.timer.Some? ==> r.endsAt.value == (if s.endsAt.value - now - 1.0 >= 1.0 then s.endsAt.value - 1.0
                                                 else now + 1.0)
  {
    if s.timer.None? || s.endsAt.None? then s
    else
      var remaining := s.endsAt.value - now - 1.0;
      var remaining := if remaining < 1.0 then 1.0 else remaining;
      s.(timer := Some(Countdown(s.nextTimerId, remaining)),
         endsAt := Some(now + remaining),
         nextTimerId := s.nextTimerId + 1)
  }

  /** `_start_game`: leave the lobby, forget the votes, hand the first turn to the first player. */
  function StartGame(env: Env, s: State, d: Draw, now: real): (r: Step)
    requires Valid(s) && !s.running && |s.order| > 0 && DrawOk(env, d)
    ensures Valid(r.st)
    ensures r.st.running && r.st.votes == {} && r.st.turn == 0
    ensures r.st.order == s.order && r.st.players == s.players
    ensures Active(r.st) == s.order[0]
    ensures r.st.timer == Some(Countdown(s.nextTimerId, d.seconds as real))
    ensures r.st.question == d.clue && r.st.answers == env.dict[d.clue]
    ensures r.out == [Broadcast(s.order, NewTurnOf(r.st))]
  {
    StartTurn(env, s.(running := true, votes := {}, turn := 0), d, now)
  }

  // ── Public operations ──────────────────────────────────────────

  /** The state right after `add_player`'s two assignments: the newcomer at the end of the rotation. */
  function Joined(s: State, ws: Conn, name: string, lives: int): (r: State)
    requires Valid(s) && ws !in s.players
    ensures Valid(r)
    ensures r == s.(order := s.order + [ws], players := s.players[ws := Player(name, lives)])
    ensures |r.players| == |s.order| + 1
  {
    AppendFreshNoDup(s.order, ws);
    var r := s.(players := s.players[ws := Player(name, lives)], order := s.order + [ws]);
    PlayerCount(r);
    r
  }

  /**
    `add_player`: the newcomer joins the end of the rotation with full lives,
    everyone (newcomer included) gets the lobby snapshot, and in auto mode
    the game starts as soon as the lobby holds enough players.
   */
  function AddPlayer(env: Env, s: State, ws: Conn, name: string, d: Draw, now: real): (r: Step)
    requires Valid(s) && ws !in s.players && DrawOk(env, d)
    ensures Valid(r.st)
    ensures r.st.order == s.order + [ws]
    ensures r.st.players == s.players[ws := Player(name, env.cfg.livesPerPlayer)]
    ensures r.st.running <==> s.running || (env.cfg.startMode == Config.Auto
                                            && |s.order| + 1 >= env.cfg.minPlayersToStart)
    ensures !s.running && r.st.running ==> r.st.turn == 0 && r.st.votes == {}
    ensures s.running || !r.st.running ==> r.st == s.(order := r.st.order, players := r.st.players)
  {
    var s1 := Joined(s, ws, name, env.cfg.livesPerPlayer);
    var lobby := BroadcastLobby(s1);
    if !s1.running && env.cfg.startMode == Config.Auto && |s1.players| >= env.cfg.minPlayersToStart then
      var g := StartGame(env, s1, d, now);
      Step(g.st, [lobby] + g.out)
    else
      Step(s1, [lobby])
  }

  /**
    What `add_player` emits: first the lobby snapshot that already lists the
    newcomer, then, when the game auto-starts, one turn announcement naming
    the first player in the rotation.
   */
  lemma AddPlayerAnnounces(env: Env, s: State, ws: Conn, name: string, d: Draw, now: real)
    requires Valid(s) && ws !in s.players && DrawOk(env, d)
    ensures var r := AddPlayer(env, s, ws, name, d, now);
            var joined := Joined(s, ws, name, env.cfg.livesPerPlayer);
            && |r.out| >= 1
            && r.out[0] == BroadcastLobby(joined)
            && r.out[0].msg.count == |s.order| + 1
            && (!s.running && r.st.running ==>
                  && r.out == [r.out[0], Broadcast(joined.order, NewTurnOf(r.st))]
                  && Active(r.st) == joined.order[0])
            && (s.running || !r.st.running ==> |r.out| == 1)
            && NoGameOver(r.out)
  {
  }

  /** The structural part of `remove_player` (lines 66-75) plus the vote discard of line 67. */
  function Leave(s: State, ws: Conn): (r: State)
    requires Valid(s) && ws in s.players
    ensures RosterOk(r)
    ensures r == Drop(s, ws).(votes := s.votes - {ws})
    ensures |r.order| > 0 ==> Valid(r)
    ensures |r.players| == |r.order|
  {
    var r := Drop(s, ws).(votes := s.votes - {ws});
    PlayerCount(r);
    r
  }

  /**
    Lines 77-83 of `remove_player`, once the player is cut from the roster:
    the game returns to the lobby only when nobody is left, the next turn
    starts at once when the active player of a running game left, and anyone
    remaining receives the lobby snapshot. `s1` satisfies the invariant except
    that a running game may just have lost its last player.
   */
  function Settle(env: Env, s1: State, wasCurrent: bool, d: Draw, now: real): (r: Step)
    requires RosterOk(s1) && s1.votes <= s1.players.Keys && DrawOk(env, d)
    requires |s1.order| > 0 || !s1.running ==> Valid(s1)
    ensures Valid(r.st) && NoGameOver(r.out)
    ensures r.st.order == s1.order && r.st.players == s1.players
    ensures r.st.votes == s1.votes && r.st.turn == s1.turn
    ensures r.st.running <==> s1.running && |s1.order| > 0
    ensures |s1.order| == 0 ==> r.out == [] && r.st.timer.None?
    ensures |s1.order| > 0 && wasCurrent && s1.running ==>
              && r.out == [Broadcast(r.st.order, NewTurnOf(r.st)), BroadcastLobby(r.st)]
              && r.st.question == d.clue && r.st.answers == env.dict[d.clue]
              && (s1.timer.Some? ==> r.st.timer == s1.timer)
              && (s1.timer.None? ==> r.st.timer == Some(Countdown(s1.nextTimerId, d.seconds as real)))
    ensures |s1.order| > 0 && !(wasCurrent && s1.running) ==> r == Step(s1, [BroadcastLobby(s1)])
  {
    PlayerCount(s1);
    var mid := if |s1.players| < 1 && s1.running then EndGame(s1)
               else if wasCurrent && s1.running then StartTurn(env, s1, d, now)
               else Step(s1, []);
    PlayerCount(mid.st);
    if |mid.st.players| > 0 then
      var r := Step(mid.st, mid.out + [BroadcastLobby(mid.st)]);
      if wasCurrent && s1.running then
        TurnThenLobbyNamesNoWinner(mid.st);
        assert r.out == [Broadcast(r.st.order, NewTurnOf(r.st)), BroadcastLobby(r.st)];
        r
      else
        LobbyNamesNoWinner(mid.st);
        r
    else mid
  }

  /** A lobby snapshot on its own announces no winner. */
  lemma LobbyNamesNoWinner(st: State)
    requires RosterOk(st)
    ensures NoGameOver([BroadcastLobby(st)])
  {
    assert !IsGameOver(BroadcastLobby(st));
  }

  /** A new-turn announcement followed by a lobby snapshot announces no winner. */
  lemma TurnThenLobbyNamesNoWinner(st: State)
    requires RosterOk(st) && |st.order| > 0
    ensures NoGameOver([Broadcast(st.order, NewTurnOf(st)), BroadcastLobby(st)])
  {
    assert !IsGameOver(Broadcast(st.order, NewTurnOf(st)));
    assert !IsGameOver(BroadcastLobby(st));
  }

  /**
    `remove_player`: an unknown connection changes nothing. Otherwise the
    player leaves the roster and the votes; the game returns to the lobby
    only if nobody is left; if the active player left a running game, the
    next player's turn starts at once on the bomb still ticking; anyone
    remaining gets the lobby snapshot; no winner is ever announced.
   */
  function RemovePlayer(env: Env, s: State, ws: Conn, d: Draw, now: real): (r: Step)
    requires Valid(s) && DrawOk(env, d)
    ensures Valid(r.st) && NoGameOver(r.out)
    ensures ws !in s.players ==> r == Step(s, [])
    ensures ws in s.players ==>
              && r.st.order == Without(s.order, ws) && |r.st.order| == |s.order| - 1
              && r.st.players == s.players - {ws}
              && r.st.votes == s.votes - {ws}
              && r.st.turn == Drop(s, ws).turn
    ensures r.st.running <==> s.running && |r.st.order| > 0
    ensures ws in s.players && |s.order| == 1 ==> r.out == [] && r.st.timer.None?
    ensures HasTurn(s, ws) && |s.order| > 1 ==>
              && r.out == [Broadcast(r.st.order, NewTurnOf(r.st)), BroadcastLobby(r.st)]
              && r.st.question == d.clue && r.st.answers == env.dict[d.clue]
              && (s.timer.Some? ==> r.st.timer == s.timer)
              && (s.timer.None? ==> r.st.timer == Some(Countdown(s.nextTimerId, d.seconds as real)))
    ensures ws in s.players && |s.order| > 1 && !HasTurn(s, ws) ==>
              r == Step(Leave(s, ws), [BroadcastLobby(Leave(s, ws))])
  {
    if ws !in s.players then Step(s, [])
    else
      var wasCurrent := s.running && |s.order| > 0 && Active(s) == ws;
      Settle(env, Leave(s, ws), wasCurrent, d, now)
  }

  /**
    After `remove_player` the same player is active if someone else left,
    and the next player in rotation if the active player left.
   */
  lemma RemovePlayerKeepsRotation(env: Env, s: State, ws: Conn, d: Draw, now: real)
    requires Valid(s) && DrawOk(env, d) && ws in s.players
    ensures var r := RemovePlayer(env, s, ws, d, now);
            && (|r.st.order| > 0 && ws != Active(s) ==> Active(r.st) == Active(s))
            && (|r.st.order| > 0 && ws == Active(s) ==> Active(r.st) == Successor(s))
  {
    DropKeepsRotation(s, ws);
  }

  /** The guess as compared: lower-cased, stripped, and accent-folded when configured. */
  function Guess(env: Env, text: string): (g: string)
    ensures !env.cfg.normalizeSpellings && |g| > 0 ==> !Text.IsSpace(g[0]) && !Text.IsSpace(g[|g| - 1])
  {
    var g := Text.Strip(env.lower(text));
    if env.cfg.normalizeSpellings then env.removeAccents(g) else g
  }

  /** The accepted answers as compared: folded the same way only when configured, raw otherwise. */
  function Accepted(env: Env, answers: seq<string>): (r: seq<string>)
    ensures |r| == |answers|
    ensures !env.cfg.normalizeSpellings ==> r == answers
    ensures env.cfg.normalizeSpellings ==> forall i :: 0 <= i < |answers| ==> r[i] == Guess(env, answers[i])
  {
    if env.cfg.normalizeSpellings
    then seq(|answers|, i requires 0 <= i < |answers| => env.removeAccents(Text.Strip(env.lower(answers[i]))))
    else answers
  }

  /** The submission is one of the accepted answers. */
  predicate Matches(env: Env, answers: seq<string>, text: string)
  {
    Guess(env, text) in Accepted(env, answers)
  }

  /**
    The comparison of `submit_answer`: with normalisation on, the guess
    matches when it folds to the same string as some accepted answer; with it
    off, the lowered and stripped guess must be one of the raw answers.
   */
  lemma MatchesIff(env: Env, answers: seq<string>, text: string)
    ensures env.cfg.normalizeSpellings ==>
              (Matches(env, answers, text) <==>
                 exists i :: 0 <= i < |answers| && Guess(env, text) == Guess(env, answers[i]))
    ensures !env.cfg.normalizeSpellings ==>
              (Matches(env, answers, text) <==> Text.Strip(env.lower(text)) in answers)
  {
    if env.cfg.normalizeSpellings {
      var acc := Accepted(env, answers);
      if Matches(env, answers, text) {
        var i :| 0 <= i < |acc| && acc[i] == Guess(env, text);
        assert Guess(env, text) == Guess(env, answers[i]);
      }
      if exists i :: 0 <= i < |answers| && Guess(env, text) == Guess(env, answers[i]) {
        var i :| 0 <= i < |answers| && Guess(env, text) == Guess(env, answers[i]);
        assert acc[i] == Guess(env, text);
      }
    }
  }

  /** The connection may act on the current turn: the game runs and it is the active player. */
  predicate HasTurn(s: State, ws: Conn)
  {
    s.running && |s.order| > 0 && ws == Active(s)
  }

  /**
    `submit_answer`: only the active player of a running game is heard. A
    miss shortens the bomb and tells only the submitter. Lives, roster,
    phase and votes never change here.
   */
  function SubmitAnswer(env: Env, s: State, ws: Conn, text: string, d: Draw, now: real): (r: Step)
    requires Valid(s) && DrawOk(env, d)
    ensures Valid(r.st)
    ensures !HasTurn(s, ws) ==> r == Step(s, [])
    ensures r.st.order == s.order && r.st.players == s.players
    ensures r.st.running == s.running && r.st.votes == s.votes
    ensures HasTurn(s, ws) && !Matches(env, s.answers, text) ==>
              r.out == [Send(ws, InvalidMsg)] && r.st == ReduceTimer(s, now)
  {
    if !s.running || |s.order| == 0 || ws != Active(s) then Step(s, [])
    else if Matches(env, s.answers, text) then
      var t := StartTurn(env, AdvanceTurn(s), d, now);
      Step(t.st, [Broadcast(s.order, ValidMsg(Guess(env, text)))] + t.out)
    else
      Step(ReduceTimer(s, now), [Send(ws, InvalidMsg)])
  }

  /**
    A matching answer is announced to everyone exactly once, passes the turn
    to the next player in rotation, and leaves a live bomb in place.
   */
  lemma SubmitMatchAdvances(env: Env, s: State, ws: Conn, text: string, d: Draw, now: real)
    requires Valid(s) && DrawOk(env, d) && HasTurn(s, ws) && Matches(env, s.answers, text)
    ensures var r := SubmitAnswer(env, s, ws, text, d, now);
            && r.out == [Broadcast(s.order, ValidMsg(Guess(env, text))), Broadcast(s.order, NewTurnOf(r.st))]
            && (forall i :: 1 <= i < |r.out| ==> !IsValidEffect(r.out[i]))
            && r.st.question == d.clue && r.st.answers == env.dict[d.clue]
            && r.st.turn == (s.turn + 1) % |s.order|
            && Active(r.st) == Successor(s)
            && (s.timer.Some? ==> r.st.timer == s.timer)
            && (s.timer.None? ==> r.st.timer == Some(Countdown(s.nextTimerId, d.seconds as real)))
            && NoGameOver(r.out)
  {
    AdvancePassesOn(s);
    var s1 := AdvanceTurn(s);
    var t := StartTurn(env, s1, d, now);
    assert t.out == [Broadcast(s1.order, NewTurnOf(t.st))];
    assert Active(t.st) == Active(s1);
  }

  /**
    Lock-held removal of several connections in turn, as the dead-recipient
    loop of `broadcast_typing` does. Removing others never moves the turn
    away from a player who stays.
   */
  function RemoveAll(s: State, dead: seq<Conn>): (r: Step)
    requires Valid(s) && NoDup(dead) && (forall c :: c in dead ==> c in s.players)
    ensures Valid(r.st)
    ensures |r.st.order| == |s.order| - |dead|
    ensures r.out == []
    ensures r.st.running <==> s.running && |r.st.order| > 0
    ensures |r.st.order| > 0 ==> r.st.timer == s.timer && r.st.question == s.question
    decreases |dead|
  {
    if |dead| == 0 then Step(s, [])
    else
      var a := RemovePlayerInternal(s, dead[0]);
      var rest := dead[1..];
      RestStillRostered(s, dead);
      var b := RemoveAll(a.st, rest);
      Step(b.st, a.out + b.out)
  }

  /** After the first listed connection is removed, the rest of the list is still duplicate-free and rostered. */
  lemma RestStillRostered(s: State, dead: seq<Conn>)
    requires Valid(s) && NoDup(dead) && (forall c :: c in dead ==> c in s.players) && |dead| > 0
    ensures NoDup(dead[1..])
    ensures forall c :: c in dead[1..] ==> c in RemovePlayerInternal(s, dead[0]).st.players
  {
    HeadTail(dead);
  }

  /** Exactly the listed connections leave the roster; those who stay keep their entry. */
  lemma {:induction false} RemoveAllMembers(s: State, dead: seq<Conn>)
    requires Valid(s) && NoDup(dead) && (forall c :: c in dead ==> c in s.players)
    ensures forall c :: c in RemoveAll(s, dead).st.players <==> c in s.players && c !in dead
    ensures forall c :: c in RemoveAll(s, dead).st.players ==> RemoveAll(s, dead).st.players[c] == s.players[c]
    decreases |dead|
  {
    if |dead| > 0 {
      var a := RemovePlayerInternal(s, dead[0]);
      var rest := dead[1..];
      HeadTail(dead);
      RemoveAllMembers(a.st, rest);
      var b := RemoveAll(a.st, rest);
      assert RemoveAll(s, dead).st == b.st;
      forall c ensures c in b.st.players <==> c in s.players && c !in dead {
        assert c in a.st.players <==> c in s.players && c != dead[0];
      }
    }
  }

  /** Removing others never moves the turn away from the active player, who stays in the game. */
  lemma {:induction false} RemoveAllKeepsActive(s: State, dead: seq<Conn>)
    requires Valid(s) && NoDup(dead) && (forall c :: c in dead ==> c in s.players)
    requires |s.order| > 0 && Active(s) !in dead
    ensures |RemoveAll(s, dead).st.order| > 0
    ensures Active(RemoveAll(s, dead).st) == Active(s)
    decreases |dead|
  {
    if |dead| > 0 {
      var a := RemovePlayerInternal(s, dead[0]);
      var rest := dead[1..];
      assert Active(s) in s.order;
      assert Active(s) in a.st.order;
      HeadTail(dead);
      assert Active(s) !in rest;
      RemoveAllKeepsActive(a.st, rest);
    }
  }

  /**
    `broadcast_typing`: only the active player of a running game is relayed,
    to everyone but the typist; recipients whose delivery fails (`failing`)
    are removed through the lock-held path afterwards.
   */
  function BroadcastTyping(s: State, ws: Conn, text: string, failing: set<Conn>): (r: Step)
    requires Valid(s)
    ensures Valid(r.st)
    ensures !HasTurn(s, ws) ==> r == Step(s, [])
    ensures HasTurn(s, ws) ==>
              && r.out == [Broadcast(Without(s.order, ws), TypingMsg(s.players[ws].name, text))]
              && ws !in r.out[0].to
              && (forall c :: c in r.st.players <==> c in s.players && (c == ws || c !in failing))
              && (forall c :: c in r.st.players ==> r.st.players[c] == s.players[c])
              && r.st.running && Active(r.st) == ws
              && r.st.timer == s.timer && r.st.question == s.question
  {
    if !s.running || |s.order| == 0 || ws != Active(s) then Step(s, [])
    else
      var others := Without(s.order, ws);
      var dead := Filter(s.order, (c: Conn) => c != ws && c in failing);
      FilterNoDup(s.order, (c: Conn) => c != ws && c in failing);
      var rm := RemoveAll(s, dead);
      RemoveAllKeepsActive(s, dead);
      RemoveAllMembers(s, dead);
      Step(rm.st, [Broadcast(others, TypingMsg(s.players[ws].name, text))] + rm.out)
  }

  /** Every rostered player is among the voters exactly when there are as many votes as players. */
  lemma AllVotedIff(s: State)
    requires RosterOk(s) && s.votes <= s.players.Keys
    ensures |s.votes| == |s.order| <==> forall c :: c in s.order ==> c in s.votes
  {
    NoDupCard(s.order);
    assert s.votes <= Elems(s.order);
    if |s.votes| == |s.order| {
      SubsetSameCard(s.votes, Elems(s.order));
    }
    if forall c :: c in s.order ==> c in s.votes {
      assert s.votes == Elems(s.order);
    }
  }

  /** `vote_start` listens: lobby, vote mode, a rostered voter, and enough players. */
  predicate VoteHeard(env: Env, s: State, ws: Conn)
  {
    && !s.running
    && env.cfg.startMode == Config.Vote
    && ws in s.players
    && |s.players| >= env.cfg.minPlayersToStart
  }

  /**
    `vote_start`: the vote is recorded and shown to everyone, and the game
    starts exactly when every rostered player has voted.
   */
  function VoteStart(env: Env, s: State, ws: Conn, d: Draw, now: real): (r: Step)
    requires Valid(s) && DrawOk(env, d)
    ensures Valid(r.st)
    ensures !VoteHeard(env, s, ws) ==> r == Step(s, [])
    ensures VoteHeard(env, s, ws) ==> (r.st.running <==> forall c :: c in s.order ==> c in s.votes + {ws})
    ensures VoteHeard(env, s, ws) && !r.st.running ==> r.st == s.(votes := s.votes + {ws})
    ensures VoteHeard(env, s, ws) && r.st.running ==>
              && r.st.votes == {} && r.st.turn == 0
              && r.st.order == s.order && r.st.players == s.players
  {
    if s.running || env.cfg.startMode != Config.Vote || ws !in s.players
       || |s.players| < env.cfg.minPlayersToStart then Step(s, [])
    else
      var s1 := s.(votes := s.votes + {ws});
      AllVotedIff(s1);
      var lobby := BroadcastLobby(s1);
      if |s1.votes| == |s1.order| then
        var g := StartGame(env, s1, d, now);
        Step(g.st, [lobby] + g.out)
      else
        Step(s1, [lobby])
  }

  /**
    What `vote_start` emits when heard: the lobby snapshot with the new vote,
    then, if that vote completed the set, the first turn of the first player.
   */
  lemma VoteStartAnnounces(env: Env, s: State, ws: Conn, d: Draw, now: real)
    requires Valid(s) && DrawOk(env, d) && VoteHeard(env, s, ws)
    ensures var r := VoteStart(env, s, ws, d, now);
            && |r.out| >= 1
            && r.out[0] == BroadcastLobby(s.(votes := s.votes + {ws}))
            && (!r.st.running ==> |r.out| == 1)
            && (r.st.running ==> r.out == [r.out[0], Broadcast(s.order, NewTurnOf(r.st))]
                                 && Active(r.st) == s.order[0])
            && NoGameOver(r.out)
  {
    var s1 := s.(votes := s.votes + {ws});
    var lobby := BroadcastLobby(s1);
    if |s1.votes| == |s1.order| {
      var g := StartGame(env, s1, d, now);
      assert VoteStart(env, s, ws, d, now) == Step(g.st, [lobby] + g.out);
    } else {
      assert VoteStart(env, s, ws, d, now) == Step(s1, [lobby]);
    }
  }

  // ── Timer events ───────────────────────────────────────────────

  /** Appends the post-explosion delay when the game is still on. */
  function ThenDelay(st: State, out: seq<Effect>): (r: Step)
    ensures r.st == st
    ensures |r.out| == |out| + (if st.running then 1 else 0)
    ensures r.out[..|out|] == out
    ensures ScheduleNextTurn in r.out <==> ScheduleNextTurn in out || st.running
  {
    Step(st, if st.running then out + [ScheduleNextTurn] else out)
  }

  /**
    `_handle_timeout`, the countdown firing: the bomb is spent and the active
    player loses a life. At no lives left they are eliminated (and the game
    returns to the lobby only if nobody remains); otherwise the turn passes
    on. Either way the next turn follows after a delay if the game is still on.
   */
  function HandleTimeout(s: State): (r: Step)
    requires Valid(s)
    ensures Valid(r.st)
    ensures !s.running ==> r == Step(s, [])
    ensures s.running ==> r.st.timer.None? && r.st.votes == {}
    ensures s.running ==> |r.out| >= 1 && r.out[1..] == (if r.st.running then [ScheduleNextTurn] else [])
    ensures s.running ==> r.out[0] == Broadcast(s.order, ExplodeMsg(s.players[Active(s)].name,
                                                                    s.players[Active(s)].lives <= 1))
    ensures r.st.running <==> s.running && |r.st.order| > 0
    ensures LivesPositive(s) ==> LivesPositive(r.st)
  {
    if !s.running || |s.order| == 0 then Step(s, [])
    else
      var a := Active(s);
      var p := s.players[a];
      var hit := p.(lives := p.lives - 1);
      var s1 := s.(timer := None, players := s.players[a := hit]);
      if hit.lives <= 0 then
        var boom := Broadcast(s1.order, ExplodeMsg(hit.name, true));
        var rm := RemovePlayerInternal(s1, a);
        ThenDelay(rm.st, [boom] + rm.out)
      else
        ThenDelay(AdvanceTurn(s1), [Broadcast(s1.order, ExplodeMsg(hit.name, false))])
  }

  /**
    A timeout that takes the last life eliminates the active player: the
    explosion is announced (to the roster that still includes them) and the
    roster shrinks by exactly that player.
   */
  lemma TimeoutEliminates(s: State)
    requires Valid(s) && s.running && s.players[Active(s)].lives <= 1
    ensures var r := HandleTimeout(s);
            && r.st.order == Without(s.order, Active(s)) && |r.st.order| == |s.order| - 1
            && r.st.players == s.players - {Active(s)}
  {
    var a := Active(s);
    var p := s.players[a];
    var s1 := s.(timer := None, players := s.players[a := p.(lives := p.lives - 1)]);
    assert s1.players - {a} == s.players - {a};
  }

  /**
    After an elimination the turn passes to the player who followed the
    eliminated one, through the pointer adjustment of lines 282-285.
   */
  lemma TimeoutEliminationPassesOn(s: State)
    requires Valid(s) && s.running && s.players[Active(s)].lives <= 1
    ensures var r := HandleTimeout(s);
            |r.st.order| > 0 ==> Active(r.st) == Successor(s)
  {
    var a := Active(s);
    var s1 := Struck(s);
    SameRosterSameTurn(s1, s);
    TimeoutRemovesStruck(s);
    RemovePlayerInternalKeepsRotation(s1, a);
    var r := HandleTimeout(s);
    if |r.st.order| > 0 {
      SameRosterSameTurn(r.st, RemovePlayerInternal(s1, a).st);
    }
  }

  /** Whose turn it is, and who is next, depend only on the roster and the pointer. */
  lemma SameRosterSameTurn(x: State, y: State)
    requires x.order == y.order && x.turn == y.turn && |x.order| > 0
    ensures Active(x) == Active(y) && Successor(x) == Successor(y)
  {
  }

  /** The state `_handle_timeout` works on once the bomb is spent and the active player hit. */
  function Struck(s: State): (r: State)
    requires Valid(s) && s.running
    ensures Valid(r) && r.order == s.order && r.turn == s.turn
  {
    var a := Active(s);
    var p := s.players[a];
    s.(timer := None, players := s.players[a := p.(lives := p.lives - 1)])
  }

  /** On the last life, the roster and pointer after `_handle_timeout` are those of the removal. */
  lemma TimeoutRemovesStruck(s: State)
    requires Valid(s) && s.running && s.players[Active(s)].lives <= 1
    ensures HandleTimeout(s).st.order == RemovePlayerInternal(Struck(s), Active(s)).st.order
    ensures HandleTimeout(s).st.turn == RemovePlayerInternal(Struck(s), Active(s)).st.turn
  {
    var a := Active(s);
    var p := s.players[a];
    assert p.(lives := p.lives - 1).lives <= 0;
  }

  /** A timeout never announces a winner, even when it eliminates the last player. */
  lemma TimeoutNeverEndsWithWinner(s: State)
    requires Valid(s)
    ensures NoGameOver(HandleTimeout(s).out)
  {
    if s.running {
      ExplosionThenDelay(HandleTimeout(s).out);
    }
  }

  /** An explosion announcement, optionally followed by the delay, names no winner. */
  lemma ExplosionThenDelay(o: seq<Effect>)
    requires |o| >= 1 && o[0].Broadcast? && o[0].msg.ExplodeMsg?
    requires o[1..] == [] || o[1..] == [ScheduleNextTurn]
    ensures NoGameOver(o)
  {
    assert o == [o[0]] + o[1..];
  }

  /**
    A timeout that leaves lives over costs exactly one life: the survival is
    announced, nobody leaves, nobody else's lives change, and the turn passes on.
   */
  lemma TimeoutSurvives(s: State)
    requires Valid(s) && s.running && s.players[Active(s)].lives > 1
    ensures var r := HandleTimeout(s);
            var a := Active(s);
            && r.out == [Broadcast(s.order, ExplodeMsg(s.players[a].name, false)), ScheduleNextTurn]
            && r.st.order == s.order
            && r.st.players == s.players[a := s.players[a].(lives := s.players[a].lives - 1)]
            && Active(r.st) == Successor(s)
            && NoGameOver(r.out)
  {
    var a := Active(s);
    var p := s.players[a];
    AdvancePassesOn(s.(timer := None, players := s.players[a := p.(lives := p.lives - 1)]));
  }

  /** `_safe_next_turn`, the post-explosion delay firing: a new turn, unless the game has ended meanwhile. */
  function SafeNextTurn(env: Env, s: State, d: Draw, now: real): (r: Step)
    requires Valid(s) && DrawOk(env, d)
    ensures Valid(r.st)
    ensures !s.running ==> r == Step(s, [])
    ensures s.running ==> r.st.order == s.order && r.st.turn == s.turn && r.st.players == s.players
    ensures s.running ==> r.out == [Broadcast(s.order, NewTurnOf(r.st))]
    ensures s.running ==> r.st.question == d.clue && r.st.answers == env.dict[d.clue]
    ensures s.running && s.timer.Some? ==> r.st.timer == s.timer
    ensures s.running && s.timer.None? ==> r.st.timer == Some(Countdown(s.nextTimerId, d.seconds as real))
  {
    if s.running then StartTurn(env, s, d, now) else Step(s, [])
  }
}

=== FILE: optional.dfy ===
/** A value that may be absent: Python's `None` next to a real value. */
module Optional {

  datatype Option<+T> = None | Some(value: T) {

    /** The carried value, or `default` when there is none (Python's `d.get(k, default)`). */
    function GetOr(default: T): (r: T)
      ensures Some? ==> r == value
      ensures None? ==> r == default
    {
      match this
      case Some(v) => v
      case None => default
    }
  }
}

=== FILE: seqs.dfy ===
/**
  Sequence helpers for the roster: duplicate-freedom, Python's `list.index`
  and `list.remove`, and an order-preserving filter used as their reference.
 */
module Seqs {

  /** No element occurs twice. */
  predicate NoDup<T(==)>(s: seq<T>)
  {
    forall i, j :: 0 <= i < j < |s| ==> s[i] != s[j]
  }

  /** The tail of a duplicate-free sequence is duplicate-free and avoids the head. */
  lemma HeadTail<T(!new)>(s: seq<T>)
    requires NoDup(s) && |s| > 0
    ensures NoDup(s[1..]) && s[0] !in s[1..]
    ensures forall x :: x in s <==> x == s[0] || x in s[1..]
  {
    assert s == [s[0]] + s[1..];
    forall j | 0 <= j < |s| - 1
      ensures s[1..][j] != s[0]
    {
      assert s[1..][j] == s[j + 1];
    }
  }

  /** In a duplicate-free sequence an element sits at one position only. */
  lemma NoDupIndex<T>(s: seq<T>, i: nat, j: nat)
    requires NoDup(s) && i < |s| && j < |s| && s[i] == s[j]
    ensures i == j
  {
  }

  /** Appending a new element keeps a sequence free of duplicates. */
  lemma AppendFreshNoDup<T>(s: seq<T>, x: T)
    requires NoDup(s) && x !in s
    ensures NoDup(s + [x])
  {
  }

  /** Filtering keeps a sequence free of duplicates. */
  lemma {:induction false} FilterNoDup<T(!new)>(s: seq<T>, keep: T -> bool)
    requires NoDup(s)
    ensures NoDup(Filter(s, keep))
  {
    if |s| > 0 {
      assert NoDup(s[1..]);
      FilterNoDup(s[1..], keep);
      assert s[0] !in s[1..];
    }
  }

  /** The elements of a sequence, as a set. */
  function Elems<T>(s: seq<T>): set<T>
  {
    set x | x in s
  }

  /** Python's `list.index(x)`: the position of the first occurrence of `x`. */
  function IndexOf<T(==)>(s: seq<T>, x: T): (i: nat)
    requires x in s
    ensures i < |s| && s[i] == x
    ensures forall j :: 0 <= j < i ==> s[j] != x
  {
    if s[0] == x then 0 else 1 + IndexOf(s[1..], x)
  }

  /** The sequence with position `i` cut out. */
  function RemoveAt<T>(s: seq<T>, i: nat): (r: seq<T>)
    requires i < |s|
    ensures |r| == |s| - 1
    ensures forall j :: 0 <= j < i ==> r[j] == s[j]
    ensures forall j :: i <= j < |r| ==> r[j] == s[j + 1]
  {
    s[..i] + s[i + 1..]
  }

  /** Python's `list.remove(x)`: drops the first occurrence of `x`. */
  function RemoveFirst<T(==)>(s: seq<T>, x: T): (r: seq<T>)
    requires x in s
    ensures |r| == |s| - 1
  {
    RemoveAt(s, IndexOf(s, x))
  }

  /** Every element of `s` that satisfies `keep`, in the order of `s`. */
  function Filter<T(!new)>(s: seq<T>, keep: T -> bool): (r: seq<T>)
    ensures |r| <= |s|
    ensures forall y :: y in r <==> y in s && keep(y)
  {
    if |s| == 0 then []
    else (if keep(s[0]) then [s[0]] else []) + Filter(s[1..], keep)
  }

  /** The elements of `r`, all drawn from `s`, appear in the order they have in `s`. */
  predicate InOrderOf<T(==)>(r: seq<T>, s: seq<T>)
    requires forall x :: x in r ==> x in s
  {
    forall i, j :: 0 <= i < j < |r| ==> IndexOf(s, r[i]) < IndexOf(s, r[j])
  }

  /** Filtering a duplicate-free sequence keeps the survivors in their original order. */
  lemma {:induction false} FilterKeepsOrder<T(!new)>(s: seq<T>, keep: T -> bool)
    requires NoDup(s)
    ensures InOrderOf(Filter(s, keep), s)
  {
    if |s| > 0 {
      var t := s[1..];
      HeadTail(s);
      FilterKeepsOrder(t, keep);
      var r := Filter(s, keep);
      var rt := Filter(t, keep);
      var k := if keep(s[0]) then 1 else 0;
      assert r == (if keep(s[0]) then [s[0]] else []) + rt;
      assert |r| == k + |rt|;
      assert InOrderOf(rt, t);
      forall i, j | 0 <= i < j < |r|
        ensures IndexOf(s, r[i]) < IndexOf(s, r[j])
      {
        assert r[j] == rt[j - k] && r[j] in t && r[j] != s[0];
        assert IndexOf(s, r[j]) == 1 + IndexOf(t, r[j]);
        if i >= k {
          assert r[i] == rt[i - k] && r[i] in t && r[i] != s[0];
          assert IndexOf(s, r[i]) == 1 + IndexOf(t, r[i]);
          assert IndexOf(t, rt[i - k]) < IndexOf(t, rt[j - k]);
        } else {
          assert r[i] == s[0] && IndexOf(s, r[i]) == 0;
        }
      }
    }
  }

  /** Every element of `s` other than `x`, in the order of `s`. */
  function Without<T(==,!new)>(s: seq<T>, x: T): (r: seq<T>)
    ensures forall y :: y in r <==> y in s && y != x
    ensures x !in s ==> r == s
  {
    if |s| == 0 then []
    else (if s[0] == x then [] else [s[0]]) + Without(s[1..], x)
  }

  /** Dropping an element keeps a sequence free of duplicates. */
  lemma RemoveAtNoDup<T>(s: seq<T>, i: nat)
    requires NoDup(s) && i < |s|
    ensures NoDup(RemoveAt(s, i))
    ensures forall y :: y in RemoveAt(s, i) <==> y in s && y != s[i]
  {
    var r := RemoveAt(s, i);
    forall y | y in s && y != s[i]
      ensures y in r
    {
      var k :| 0 <= k < |s| && s[k] == y;
      if k < i { assert r[k] == y; } else { assert r[k - 1] == y; }
    }
  }

  /**
    On a duplicate-free sequence, removing the first occurrence of `x`
    is the same as filtering `x` out: the others keep their relative order.
   */
  lemma {:induction false} RemoveFirstIsWithout<T(!new)>(s: seq<T>, x: T)
    requires NoDup(s) && x in s
    ensures RemoveFirst(s, x) == Without(s, x)
  {
    if s[0] == x {
      assert x !in s[1..];
      assert Without(s, x) == Without(s[1..], x) == s[1..];
    } else {
      var t := s[1..];
      assert NoDup(t);
      RemoveFirstIsWithout(t, x);
      assert IndexOf(s, x) == 1 + IndexOf(t, x);
      assert RemoveFirst(s, x) == [s[0]] + RemoveFirst(t, x);
    }
  }

  /** A duplicate-free sequence has exactly as many distinct elements as positions. */
  lemma {:induction false} NoDupCard<T>(s: seq<T>)
    requires NoDup(s)
    ensures |Elems(s)| == |s|
  {
    if |s| > 0 {
      var t := s[1..];
      assert NoDup(t);
      NoDupCard(t);
      assert Elems(s) == {s[0]} + Elems(t);
      assert s[0] !in Elems(t);
    }
  }

  /** A subset as large as its finite superset is the superset. */
  lemma {:induction false} SubsetSameCard<T>(a: set<T>, b: set<T>)
    requires a <= b && |a| == |b|
    ensures a == b
  {
    if a != b {
      var x :| x in b && x !in a;
      assert a <= b - {x};
      SubsetCard(a, b - {x});
    }
  }

  /** A subset is never larger than its superset. */
  lemma {:induction false} SubsetCard<T>(a: set<T>, b: set<T>)
    requires a <= b
    ensures |a| <= |b|
  {
    if a != {} {
      var x :| x in a;
      SubsetCard(a - {x}, b - {x});
    }
  }
}

=== FILE: text.dfy ===
/**
  The two string operations the core applies before comparing text:
  Python's `str.strip()` with no argument, and lower-casing restricted to
  ASCII (what the configuration keywords need).
 */
module Text {

  /** Python's `str.isspace()` on one character: the Unicode whitespace set `strip()` removes. */
  predicate IsSpace(c: char)
  {
    || ('\t' <= c <= '\r')
    || ('\U{1C}' <= c <= '\U{1F}')
    || c == ' '
    || c == '\U{85}'
    || c == '\U{A0}'
    || c == '\U{1680}'
    || ('\U{2000}' <= c <= '\U{200A}')
    || c == '\U{2028}'
    || c == '\U{2029}'
    || c == '\U{202F}'
    || c == '\U{205F}'
    || c == '\U{3000}'
  }

  /** Every character of `s` is whitespace. */
  predicate AllSpace(s: string)
  {
    forall i :: 0 <= i < |s| ==> IsSpace(s[i])
  }

  /** Drops the leading whitespace: the result is the suffix starting at the first non-space. */
  function TrimLeft(s: string): (r: string)
    ensures |r| <= |s| && r == s[|s| - |r|..]
    ensures AllSpace(s[..|s| - |r|])
    ensures |r| > 0 ==> !IsSpace(r[0])
  {
    if |s| > 0 && IsSpace(s[0]) then TrimLeft(s[1..]) else s
  }

  /** Drops the trailing whitespace: the result is the prefix ending at the last non-space. */
  function TrimRight(s: string): (r: string)
    ensures |r| <= |s| && r == s[..|r|]
    ensures AllSpace(s[|r|..])
    ensures |r| > 0 ==> !IsSpace(r[|r| - 1])
  {
    if |s| > 0 && IsSpace(s[|s| - 1]) then TrimRight(s[..|s| - 1]) else s
  }

  /** How many leading whitespace characters `Strip` removes. */
  function LeadingSpace(s: string): (n: nat)
    ensures n <= |s|
  {
    |s| - |TrimLeft(s)|
  }

  /**
    Python's `s.strip()`: the slice of `s` that neither starts nor ends with
    whitespace, everything cut off on either side being whitespace.
   */
  function Strip(s: string): (r: string)
    ensures LeadingSpace(s) + |r| <= |s|
    ensures r == s[LeadingSpace(s)..LeadingSpace(s) + |r|]
    ensures AllSpace(s[..LeadingSpace(s)]) && AllSpace(s[LeadingSpace(s) + |r|..])
    ensures |r| > 0 ==> !IsSpace(r[0]) && !IsSpace(r[|r| - 1])
  {
    var l := TrimLeft(s);
    var r := TrimRight(l);
    assert s[LeadingSpace(s) + |r|..] == l[|r|..];
    r
  }

  /** Lower-cases the ASCII letters A-Z and leaves every other character alone. */
  function LowerChar(c: char): (d: char)
    ensures !('A' <= d <= 'Z')
    ensures !('A' <= c <= 'Z') ==> d == c
  {
    if 'A' <= c <= 'Z' then (c as int - 'A' as int + 'a' as int) as char else c
  }

  /** ASCII lower-casing of a whole string, character by character. */
  function AsciiLower(s: string): (r: string)
    ensures |r| == |s|
    ensures forall i :: 0 <= i < |s| ==> !('A' <= r[i] <= 'Z')
    ensures forall i :: 0 <= i < |s| && !('A' <= s[i] <= 'Z') ==> r[i] == s[i]
  {
    seq(|s|, i requires 0 <= i < |s| => LowerChar(s[i]))
  }

  /** Leading whitespace never survives `TrimLeft`. */
  lemma {:induction false} TrimLeftPadded(p: string, s: string)
    requires AllSpace(p)
    ensures TrimLeft(p + s) == TrimLeft(s)
  {
    if |p| > 0 {
      assert (p + s)[1..] == p[1..] + s;
      TrimLeftPadded(p[1..], s);
    } else {
      assert p + s == s;
    }
  }

  /** Trailing whitespace never survives `TrimRight`. */
  lemma {:induction false} TrimRightPadded(s: string, q: string)
    requires AllSpace(q)
    ensures TrimRight(s + q) == TrimRight(s)
  {
    if |q| > 0 {
      assert (s + q)[..|s + q| - 1] == s + q[..|q| - 1];
      TrimRightPadded(s, q[..|q| - 1]);
    } else {
      assert s + q == s;
    }
  }

  /** Trailing text after a non-space character is untouched by `TrimLeft`. */
  lemma {:induction false} TrimLeftAppend(s: string, q: string)
    requires !AllSpace(s)
    ensures TrimLeft(s + q) == TrimLeft(s) + q
  {
    assert |s| > 0;
    if IsSpace(s[0]) {
      assert (s + q)[1..] == s[1..] + q;
      assert !AllSpace(s[1..]) by {
        var k :| 0 <= k < |s| && !IsSpace(s[k]);
        assert s[1..][k - 1] == s[k];
      }
      TrimLeftAppend(s[1..], q);
    }
  }

  /** `TrimLeft` of an all-space string is empty. */
  lemma {:induction false} TrimLeftAllSpace(s: string)
    requires AllSpace(s)
    ensures TrimLeft(s) == ""
  {
    if |s| > 0 {
      TrimLeftAllSpace(s[1..]);
    }
  }

  /** Surrounding whitespace does not change what `Strip` returns. */
  lemma StripPadded(p: string, s: string, q: string)
    requires AllSpace(p) && AllSpace(q)
    ensures Strip(p + s + q) == Strip(s)
  {
    assert p + s + q == p + (s + q);
    TrimLeftPadded(p, s + q);
    if AllSpace(s) {
      assert AllSpace(s + q);
      TrimLeftAllSpace(s + q);
      TrimLeftAllSpace(s);
    } else {
      TrimLeftAppend(s, q);
      TrimRightPadded(TrimLeft(s), q);
    }
  }

  /** A string that neither starts nor ends with whitespace is its own strip. */
  lemma StripUnpadded(s: string)
    requires |s| > 0 && !IsSpace(s[0]) && !IsSpace(s[|s| - 1])
    ensures Strip(s) == s
  {
    assert TrimLeft(s) == s;
    assert TrimRight(s) == s;
  }
}
